=== FILE: README.md ===
# netmem demand paging, modelled in Dafny

netmem shares one region of memory between two processes over a TCP
connection. The client maps a window of its address space and makes every
page of it inaccessible. A load from an inaccessible page faults, and the
fault handler then does three things:

- it makes the page readable and writable, and the process dies if
  `mprotect` fails;
- it asks the server for that page, sending opcode `0xA8` followed by the
  page's offset as eight little-endian bytes;
- it reads one page of reply (`getpagesize()` bytes) into the page.

The load is then retried and completes.

The server fills a backing store with a per-page pattern (byte `0xA0 + i` in
page `i`). It answers page requests until the client sends `0xA9`
(disconnect). Both sides move bytes with full-transfer loops, which call the
socket until exactly the requested count has moved.

The model has these modules:

- `Octets` holds bytes, 64-bit values, and the little-endian value and bytes
  of a byte sequence.
- `Bits` holds `&`, `|`, `<<` and `>>` on naturals, and the mask lemmas that
  relate them to arithmetic.
- `Wire` holds the shared header's sentinels and frame sizes, the two
  commands the client and server actually use, and the page-request frame.
- `Transfer` holds `write_socket_blocking` and `read_socket_blocking`. Each
  is an imperative loop against a transport oracle, which gives the count
  each call returns.
- `Comms` holds the byte, buffer and quadword wrappers.
- `Server` holds the store fill, the decode of the offset, and the command
  loop. The loop is a pure interpreter from the client's byte stream to the
  server's replies, the input consumed, and the reason it stopped.
- `Client` holds the mask and offset arithmetic, the fault handler, and the
  application's loads. Page protection is an explicit per-page state,
  `Unmapped` or `Resident(bytes)`.
- `Session` composes the client and the server. A load from the window
  answers the store byte at the same offset. The program's own run, one load
  from each of 16 pages, sends 145 bytes and reads the 16 fill bytes.

In these places the model follows what the code does:

- **Server bounds check.** The server does not check that a requested page
  lies inside the store (netmem/server.cpp:123-128). The model stops there
  with `OutOfBounds`, because the read is undefined. It does not reject the
  request.
- **Opcodes.** The client and server exchange `0xA8`/`0xA9`
  (netmem/client.cpp:21-22, netmem/server.cpp:112, 133). These are not the
  header's `REQUEST_PAGE` `0x80` and `CLIENT_DISCONNECT` `0xB0`.
- **Header-only features.** The connect handshake, page sync and ACK/NACK
  exist only as header constants (netmem/shared.h:16-31). No code sends or
  handles them, so the model only proves facts about the constants.
- **Faults outside the window.** The fault handler does not check that a
  fault lies in the window. The model's handler is only defined for faults
  inside it.

## Model

| member | source | states |
|---|---|---|
| Octets.LeBytesAt | netmem/client.cpp:60-61 | byte i of the 8-byte little-endian encoding of v is `(v / 256^i) % 256` |
| Octets.LeValueOfBytes | netmem/server.cpp:116-118 | decoding the n-byte encoding of v gives v modulo 256^n |
| Octets.LeBytesOfValue | netmem/comms.cpp:60-67 | re-encoding the value of any byte sequence gives the same bytes back |
| Octets.QuadRoundTrip | netmem/client.cpp:60-61 | every 64-bit value survives the 8-byte encode and the decode unchanged |
| Octets.LeValueSnoc | netmem/server.cpp:117-118 | appending byte x to s adds x·256^|s| to the value, which is the loop step of the server's decode |
| Bits.And | netmem/client.cpp:29 | `x & y` on unsigned values, bit by bit; the result is at most either operand |
| Bits.Or | netmem/server.cpp:118 | `x \| y` on unsigned values, bit by bit; the result is at least either operand and at most their sum |
| Bits.AndLowMask | netmem/client.cpp:61 | masking with 2^k−1 (`& 0xFF` for k = 8) keeps the value modulo 2^k |
| Bits.AndHighMask | netmem/client.cpp:29 | masking an n-bit value with ones in bits k..n−1 rounds it down to a multiple of 2^k |
| Bits.OrDisjoint | netmem/server.cpp:118 | OR-ing a value below 2^k into a value shifted left by k is addition |
| Wire.CodeByte | netmem/shared.h:16-31 | the byte of each of the eleven header sentinels; none of them is `0xA8` or `0xA9` |
| Wire.CodeOf | netmem/shared.h:16-31 | a byte decodes to a sentinel exactly when some sentinel has that byte, and only to that sentinel |
| Wire.CodesDistinct | netmem/shared.h:16-31 | the eleven sentinels have pairwise different bytes, and each decodes back to itself |
| Wire.ConnectStatusIsNotSyncStatus | netmem/shared.h:20-31 | ACK and NACK are different bytes from sync OK and sync ERR |
| Wire.CommandsAreNotHeaderCodes | netmem/client.cpp:21-22 | the page-request and disconnect opcodes in use are not any of the header's sentinels |
| Wire.Max | netmem/shared.h:40 | `max` is an upper bound of both arguments and equals one of them |
| Wire.FrameSizes | netmem/shared.h:33-40 | the page request is 9 bytes, the page response 4097, the sync request 4105 and the sync response 1; the offset field is `PTR_SIZE` wide; the largest receive is the sync request |
| Wire.OffsetFieldByte | netmem/client.cpp:60-61 | byte i of the offset field is `(offs >> (i << 3)) & 0xFF` |
| Wire.PageRequest | netmem/client.cpp:53-64 | the request frame is 9 bytes: `0xA8`, then bytes `(offs >> 8i) & 0xFF`, whose little-endian value is the offset |
| Transfer.WriteAll | netmem/util.cpp:35-68 | every call is the transport's answer at the offset reached so far, asking for all the bytes not yet sent, the first at offset 0 and each later one just past what the one before moved; on completion exactly `bytes_to_write` bytes went; a call returning 0 or −1 is the last and ends the transfer with that status; the accepted chunks, in order, are the buffer prefix written; a request of 0 or fewer bytes makes no call |
| Transfer.ReadAll | netmem/util.cpp:72-105 | every call is the transport's answer at the stream position reached so far, asking for all the bytes not yet received; on completion exactly `bytes_to_read` bytes came; the buffer is the stream's next bytes in order; a 0 or −1 return is the last call and is fatal; a request of 0 or fewer bytes makes no call |
| Transfer.WriteToEagerPeer | netmem/util.cpp:43-63 | against a transport that accepts every byte it is offered, the write loop always completes and sends the whole buffer prefix |
| Transfer.ReadFromEagerPeer | netmem/util.cpp:80-100 | against a transport that delivers every byte the peer sent, reading bytes the peer did send always completes and returns exactly them |
| Comms.Get | netmem/comms.cpp:7-16 | on completion the buffer is the next `length` bytes of the stream; every `recv` call asks, at the stream position reached so far, for all of the `length` bytes not yet received, a 0 or −1 return is the last call and gives that status, and on completion the calls moved exactly `length` bytes |
| Comms.Send | netmem/comms.cpp:19-28 | on completion the bytes sent are the first `length` bytes of the buffer; every `send` call asks, at the buffer offset reached so far, for all of the `length` bytes not yet sent, a 0 or −1 return is the last call and gives that status, and on completion the calls moved exactly `length` bytes |
| Comms.SendByte | netmem/comms.cpp:31-37 | on completion exactly the one byte `value` was sent; every `send` call asks, at the buffer offset reached so far, for all of the one byte not yet sent, a 0 or −1 return is the last call and gives that status, and on completion the calls moved exactly one byte |
| Comms.GetByte | netmem/comms.cpp:39-45 | on completion the result is the next byte of the stream; every `recv` call asks, at the stream position reached so far, for all of the one byte not yet received, a 0 or −1 return is the last call and gives that status, and on completion the calls moved exactly one byte |
| Comms.SendQuad | netmem/comms.cpp:49-57 | on completion exactly 8 bytes were sent, and their little-endian value is the quadword; every `send` call asks, at the buffer offset reached so far, for all of the 8 bytes not yet sent, a 0 or −1 return is the last call and gives that status, and on completion the calls moved exactly 8 bytes |
| Comms.GetQuad | netmem/comms.cpp:60-67 | on completion the result's 8-byte encoding is the next 8 bytes of the stream; every `recv` call asks, at the stream position reached so far, for all of the 8 bytes not yet received, a 0 or −1 return is the last call and gives that status, and on completion the calls moved exactly 8 bytes |
| Comms.QuadLoopback | netmem/comms.cpp:54-66 | what `comms_getq` reassembles from the bytes `comms_sendq(v)` sent is v |
| Server.InitStore | netmem/server.cpp:86-93 | the store is `REGION_SIZE` bytes; every byte of complete page i is `(0xA0 + i) mod 256`; a final partial page is left as allocated |
| Server.AssembleOffset | netmem/server.cpp:114-118 | the offset OR-assembled from the 8 received bytes is their little-endian value, and encodes back to them |
| Server.Serve | netmem/server.cpp:105-141 | the loop consumes at most its input and sends whole pages only. A disconnect stop follows a consumed `0xA9`. An unknown-opcode stop follows a consumed opcode other than `0xA8`/`0xA9`. A stream that ends mid-command is consumed entirely. An out-of-store request stops after its 9 bytes |
| Server.ServePageRequest | netmem/server.cpp:112-131 | an in-bounds page request consumes exactly 9 bytes, sends exactly `store[offset .. offset+0x1000)`, and the loop carries on with the rest |
| Server.ServeOutOfBoundsRequest | netmem/server.cpp:114-128 | a request whose page runs past the store stops the loop after its 9 bytes, with nothing sent |
| Server.ServeDisconnect | netmem/server.cpp:133-135 | `0xA9` ends the loop: one byte consumed, nothing sent, nothing after it read |
| Server.ServeUnknownCommand | netmem/server.cpp:137-138 | any other opcode is fatal at once, with nothing sent |
| Server.ServeSession | netmem/server.cpp:105-141 | a run of in-bounds requests closed by `0xA9` is answered with exactly the requested pages, in order, and nothing after the disconnect is consumed |
| Server.ServedSession | netmem/server.cpp:105-141 | conversely, a loop that stopped at a disconnect consumed a run of in-bounds requests and the disconnect, and sent exactly those pages |
| Server.PagesAt | netmem/server.cpp:123-128 | page j of the reply to a run of in-bounds requests is the store page at the j-th requested offset |
| Server.ServeRepeatedRequest | netmem/server.cpp:105-141 | the loop never writes the store, so any two requests for the same offset anywhere in a session get identical replies, the store page at that offset |
| Client.PageMaskWidened | netmem/client.cpp:121-123 | `~(page_size−1)` held in an `int` is negative and fits 32 bits; widened to `uint64` it has ones in bits pageShift..63 |
| Client.PageBase | netmem/client.cpp:28-29 | the page base is a multiple of the page size, and `page_base ≤ addr < page_base + page_size` |
| Client.PageBaseIdempotent | netmem/client.cpp:29 | aligning an aligned address returns it; aligning twice is aligning once |
| Client.SharedOffset | netmem/client.cpp:57 | for an address in the window, `page_base − base` is page aligned, at most `addr − base`, within one page of it, and its page fits in the window |
| Client.SharedOffsetUnique | netmem/client.cpp:57 | the shared offset is the only aligned offset whose page holds the address, namely `addr − base` rounded down |
| Client.Protected | netmem/client.cpp:150-154 | after `mprotect(PROT_NONE)` the window has one page per page of the region, and every one of them is inaccessible |
| Client.LoadFaults | netmem/client.cpp:171 | a load from the window faults exactly when its page is inaccessible; otherwise it reads the page's byte at the address's distance from the page base |
| Client.InstallPage | netmem/client.cpp:67-72 | filling the faulting page sets exactly the bytes of `[page_base, page_base+page_size)` and no other byte of the window changes |
| Client.HandleFault | netmem/client.cpp:24-73 | the handler dies exactly when `mprotect` fails or the reply is short. Otherwise it sends the 9-byte request for the shared offset, consumes exactly one page of reply, and afterwards a load from the faulting page reads the reply byte at the same distance from the page base, while every other load is unchanged |
| Client.Touch | netmem/client.cpp:165-171 | a load from an accessible page answers at once with no traffic; a load from an inaccessible page completes exactly when a page of reply is available, after which the load's byte is readable |
| Client.RunTouches | netmem/client.cpp:168-172 | a completed run yields one value per load, keeps every page the right size, sends whole request frames only, and consumes reply bytes |
| Client.ClientSession | netmem/client.cpp:165-180 | a completed session yields one value per load and ends with the single disconnect byte after whole request frames |
| Client.TestTouches | netmem/client.cpp:168-171 | the program loads 16 addresses, at offsets `0x000A + i·0x1000`, all inside the window |
| Client.FirstFetches | netmem/client.cpp:168-172 | the pages a run of loads fetches are aligned, inside the window, not accessible beforehand, and pairwise different |
| Session.ProtectedConsistent | netmem/client.cpp:150-154 | the fully protected window agrees with any store and has no accessible page |
| Session.TouchResident | netmem/client.cpp:165-171 | in a window that agrees with the store, a load from an accessible page answers the store byte with no traffic |
| Session.TouchFetch | netmem/client.cpp:24-73 | a load from an inaccessible page, with the server's copy of it next on the connection, sends the request for exactly that page, answers the store byte, makes only that page accessible, and keeps the window in agreement with the store |
| Session.RunAgainstStore | netmem/client.cpp:168-172 | fed the server's copies of the pages it fetches, a run of loads sends one request per page first loaded from, consumes exactly those pages, and every load answers the store byte at its offset |
| Session.ClientAgainstStore | netmem/client.cpp:165-180 | a whole client session fed those pages sends its requests then `0xA9`, leaves no reply unread, and every load answers the store byte |
| Session.EndToEnd | netmem/server.cpp:105-141 | the server, reading what the client sent, answers with exactly the pages the client reads and stops at the disconnect having read all of it; fed that reply, every load answers the store byte at its offset |
| Session.FetchesOfDistinctPages | netmem/client.cpp:168-172 | loads from pairwise different inaccessible pages each fetch their own page, in order |
| Session.TestFetches | netmem/client.cpp:168-172 | the program's 16 loads fetch pages 0 to 15, each once, in order |
| Session.PatternedAt | netmem/server.cpp:90-93 | byte j of page i of the filled store is `(0xA0 + i) mod 256` |
| Session.TestByte | netmem/server.cpp:90-93 | the store byte under load i of the program is the fill byte of page i |
| Session.TestBytes | netmem/server.cpp:90-93 | the store bytes under all 16 loads of the program are the fill bytes of pages 0 to 15 |
| Session.SessionLoads | netmem/client.cpp:165-180 | a whole client session fed the pages it fetches loads exactly the store bytes under its loads, and sends its requests then `0xA9` |
| Session.TestRun | netmem/client.cpp:168-180 | against the filled store the program's run completes; load i answers the fill byte of page i; the client sends 16 requests and `0xA9`, 145 bytes in all |
| Session.TouchPageThree | netmem/server.cpp:90-93 | a single load at offset `0x300A` of a 16-page filled store answers `0xA3` |

## Left out

- Sockets are left out: `socket`, `bind`, `listen`, `accept`, `connect`
  and `close` (netmem/client.cpp:87-109, netmem/server.cpp:32-81, 160-172).
  The connection is a byte stream in each direction, and the transport is an
  oracle giving each call's return value.
- Signal delivery is left out: `sigaction` and the restart of the faulting
  load. A load from an inaccessible page is modelled as a handler call
  followed by the retried load.
- `mmap` and `munmap` are left out. `mmap` failure only prints in the source
  and the program carries on with `MAP_FAILED`; the model starts from a valid
  window.
- `die` and `die_errno` are modelled as fatal outcomes (`Halt`, `Fatal`,
  `Status`), without their messages or the process exit.
- The `DEBUG` prints and the `#if 0` blocks are diagnostics, so they are
  left out.
- The connect handshake, page sync, write-back and ACK/NACK negotiation are
  left out. Only their constants exist in the code.
- `REGION_SIZE` is not defined in the files of this model, so it is a
  parameter: the region size and the store size.
- The client's page size from `getpagesize()` is a parameter, a power of two
  up to 2^30. The session lemmas require it to equal the server's hard-coded
  0x1000.
- netmem/main.cpp, nmmapmod/nmmapmod.c, testclient/testclient.c and
  testnlclient/testnlclient.c are not part of this model. They hold
  argument parsing, a kernel module and a netlink transport variant.
- Server.Serve: an out-of-store request (undefined behaviour in the source)
  stops the model's loop with `OutOfBounds`, rather than sending
  unspecified bytes. Its contract for that stop does not tie the offset to
  the consumed bytes; `Server.ServeOutOfBoundsRequest` states it for a
  request frame.
- Server.Serve: the server's own writes of page data are taken to succeed.
  A failed write ends the process in the source.
- Server.InitStore: the bytes of a final partial page are whatever `new`
  left there. The model takes them as the parameter `residue`.
- Client.HandleFault: the request is taken to be written successfully. The
  source sends it as a 1-byte write and an 8-byte write, which put the same
  9 bytes on the stream. The handler is only modelled for faults inside the
  window; the source does no such check.
- Client.Touch: the handler's `mprotect` on a page of the live window is
  taken to succeed. `Client.HandleFault` models its failure.
- Client.ClientSession: the initial `mprotect(PROT_NONE)` is taken to
  succeed; the source only prints its failure. The final raw `write` of
  `0xA9` is taken to succeed; the source ignores its result.
- Transfer.WriteAll: the counts are unbounded integers; the source's 32-bit
  `int` counts cannot overflow for the sizes the program uses.
- Transfer.ReadAll: the counts are unbounded integers, as for
  `Transfer.WriteAll`.
- Comms.GetQuad: native order is taken to be little-endian; the source does
  not fix it.
- Comms.SendQuad: native order is taken to be little-endian; the source does
  not fix it.
- Concurrency and timeouts are left out. The program is single-threaded and
  synchronous.

=== FILE: bits.dfy ===
/** Bitwise operators on non-negative integers, defined bit by bit, so that
    the masks and shifts of the client and server code can be modelled as
    written and then related to ordinary arithmetic. */
module Bits {
  import opened NatArith
  import opened Octets

  function Pow2(k: nat): (r: nat)
    ensures r >= 1
  {
    if k == 0 then 1 else 2 * Pow2(k - 1)
  }

  /** `x & y`. */
  function And(x: nat, y: nat): (r: nat)
    ensures r <= x && r <= y
    decreases x
  {
    if x == 0 || y == 0 then 0
    else 2 * And(x / 2, y / 2) + (if x % 2 == 1 && y % 2 == 1 then 1 else 0)
  }

  /** `x | y`. */
  function Or(x: nat, y: nat): (r: nat)
    ensures x <= r && y <= r && r <= x + y
    decreases x + y
  {
    if x == 0 then y
    else if y == 0 then x
    else 2 * Or(x / 2, y / 2) + (if x % 2 == 1 || y % 2 == 1 then 1 else 0)
  }

  /** `x << k`, before any truncation to a machine width. */
  function Shl(x: nat, k: nat): nat
  {
    x * Pow2(k)
  }

  /** `x >> k` on an unsigned value. */
  function Shr(x: nat, k: nat): nat
  {
    DivNonneg(x, Pow2(k));
    x / Pow2(k)
  }

  lemma {:induction false} Pow2Add(a: nat, b: nat)
    ensures Pow2(a + b) == Pow2(a) * Pow2(b)
  {
    if a > 0 {
      Pow2Add(a - 1, b);
      assert Pow2(a + b) == 2 * Pow2(a - 1 + b);
    }
  }

  /** A shift by 8i bits is a multiplication or division by 256^i. */
  lemma {:induction false} Pow256IsPow2(i: nat)
    ensures Pow256(i) == Pow2(8 * i)
  {
    if i > 0 {
      Pow256IsPow2(i - 1);
      Pow2Add(8, 8 * (i - 1));
      assert Pow2(8) == 256;
    }
  }

  lemma U64LimitIsPow2()
    ensures Pow2(64) == U64Limit
  {
    Pow256IsPow2(8);
    Pow256Quad();
  }

  lemma {:induction false} Pow2Monotone(k: nat, n: nat)
    requires k <= n
    ensures Pow2(k) <= Pow2(n)
  {
    if k < n {
      Pow2Monotone(k, n - 1);
    }
  }

  /** The n-bit mask with ones in bits k..n-1, i.e. `~(2^k - 1)` truncated
      to n bits. */
  function HighMask(n: nat, k: nat): (m: nat)
    requires k <= n
    ensures m + Pow2(k) == Pow2(n)
  {
    Pow2Monotone(k, n);
    Pow2(n) - Pow2(k)
  }

  /** Masking with k low one-bits keeps the value modulo 2^k. */
  lemma {:induction false} AndLowMask(x: nat, k: nat)
    ensures And(x, Pow2(k) - 1) == x % Pow2(k)
  {
    if k == 0 {
      assert Pow2(k) - 1 == 0;
      assert And(x, 0) == 0;
    } else if x == 0 {
      assert And(0, Pow2(k) - 1) == 0;
    } else {
      var h := Pow2(k - 1);
      var p := Pow2(k);
      assert p == 2 * h;
      var y := p - 1;
      assert y % 2 == 1 && y / 2 == h - 1;
      assert And(x, y) == 2 * And(x / 2, h - 1) + x % 2;
      AndLowMask(x / 2, k - 1);
      DivModSplit(x, 2, h);
      assert x % p == x % 2 + 2 * ((x / 2) % h);
    }
  }

  /** Masking an n-bit value with ones in bits k..n-1 clears its k low bits,
      i.e. rounds it down to a multiple of 2^k. */
  lemma {:induction false} AndHighMask(x: nat, n: nat, k: nat)
    requires k <= n && x < Pow2(n)
    ensures And(x, HighMask(n, k)) == x - x % Pow2(k)
  {
    if k == 0 {
      assert HighMask(n, k) == Pow2(n) - 1;
      AndLowMask(x, n);
      DivModUnique(x, Pow2(n), 0, x);
    } else if k == n {
      assert HighMask(n, k) == 0;
      DivModUnique(x, Pow2(k), 0, x);
    } else if x == 0 {
      assert And(0, HighMask(n, k)) == 0;
    } else {
      var y := HighMask(n, k);
      var y' := HighMask(n - 1, k - 1);
      var h := Pow2(k - 1);
      assert Pow2(n) == 2 * Pow2(n - 1) && Pow2(k) == 2 * h;
      assert y == 2 * y';
      Pow2Monotone(k, n - 1);
      assert y > 0;
      assert y % 2 == 0 && y / 2 == y';
      assert And(x, y) == 2 * And(x / 2, y');
      AndHighMask(x / 2, n - 1, k - 1);
      DivModSplit(x, 2, h);
      assert x % Pow2(k) == x % 2 + 2 * ((x / 2) % h);
    }
  }

  /** OR-ing a value below 2^k into a value shifted left by k adds them: the
      two occupy disjoint bit ranges. */
  lemma {:induction false} OrDisjoint(x: nat, y: nat, k: nat)
    requires x < Pow2(k)
    ensures Or(x, Shl(y, k)) == x + Shl(y, k)
  {
    if k > 0 && x > 0 && y > 0 {
      var z := y * Pow2(k);
      assert z == 2 * (y * Pow2(k - 1));
      assert z % 2 == 0 && z / 2 == y * Pow2(k - 1);
      OrDisjoint(x / 2, y, k - 1);
    }
  }
}

=== FILE: client.dfy ===
/** The netmem client: a window of its address space whose pages are all
    inaccessible at first, and a fault handler that, on the first touch of a
    page, fetches that page from the server and makes it accessible. Page
    protection is modelled as a per-page state instead of OS state. */
module Client {
  import opened NatArith
  import opened Octets
  import opened Bits
  import opened Wire

  /** The window: the base address `mmap` returned, its size (REGION_SIZE),
      and the OS page size, 2^pageShift. */
  datatype Region = Region(base: u64, size: nat, pageShift: nat)
  {
    function PageSize(): nat
    {
      Pow2(pageShift)
    }

    /** The page size fits the C `int` holding it; the window is page
        aligned, a whole number of pages, and inside the address space. */
    predicate Valid()
    {
      && pageShift <= 30
      && base % PageSize() == 0 && size % PageSize() == 0
      && base + size <= U64Limit
    }

    function PageCount(): nat
    {
      DivNonneg(size, PageSize());
      size / PageSize()
    }

    predicate Contains(addr: int)
    {
      base <= addr < base + size
    }
  }

  /** `~x` on a two's-complement integer. */
  function Not(x: int): int
  {
    -x - 1
  }

  /** Conversion of a signed integer to `uint64`: the value modulo 2^64. */
  function ToU64(x: int): u64
  {
    x % U64Limit
  }

  /** `client_offs_mask = client_page_size - 1`. */
  function OffsMask(r: Region): int
  {
    r.PageSize() - 1
  }

  /** `client_page_mask = ~client_offs_mask`, held in an `int`. */
  function PageMask(r: Region): int
  {
    Not(OffsMask(r))
  }

  /** The `int` mask is negative and fits 32 bits; widening it to `uint64`
      sign-extends it, so it has ones in every bit from pageShift to 63. */
  lemma PageMaskWidened(r: Region)
    requires r.Valid()
    ensures -0x8000_0000 <= PageMask(r) < 0
    ensures ToU64(PageMask(r)) == HighMask(64, r.pageShift)
  {
    Pow256IsPow2(4);
    assert Pow256(4) == 0x1_0000_0000;
    Pow2Monotone(r.pageShift, 31);
    U64LimitIsPow2();
    DivModUnique(PageMask(r), U64Limit, -1, U64Limit - r.PageSize());
  }

  /** `access_address & (uint64)client_page_mask`: the start of the page
      holding `addr`. */
  function PageBase(r: Region, addr: u64): (b: u64)
    requires r.Valid()
    ensures b % r.PageSize() == 0 && b <= addr < b + r.PageSize()
  {
    PageMaskWidened(r);
    U64LimitIsPow2();
    AndHighMask(addr, 64, r.pageShift);
    RoundDown(addr, r.PageSize());
    And(addr, ToU64(PageMask(r)))
  }

  /** Aligning is idempotent, and leaves an aligned address unchanged. */
  lemma PageBaseIdempotent(r: Region, addr: u64)
    requires r.Valid()
    ensures addr % r.PageSize() == 0 ==> PageBase(r, addr) == addr
    ensures PageBase(r, PageBase(r, addr)) == PageBase(r, addr)
  {
    forall a: u64 | a % r.PageSize() == 0
      ensures PageBase(r, a) == a
    {
      var b := PageBase(r, a);
      if b < a {
        AlignedGap(r.PageSize(), b, a);
      }
    }
  }

  /** `(uint64)page_base - (uint64)client_region_base`, wrapping modulo 2^64:
      for an address in the window, the offset of its page in the window. */
  function SharedOffset(r: Region, addr: u64): (o: u64)
    requires r.Valid()
    ensures r.Contains(addr) ==>
      && o % r.PageSize() == 0
      && o <= addr - r.base < o + r.PageSize()
      && o + r.PageSize() <= r.size
  {
    var b := PageBase(r, addr);
    if r.Contains(addr) then
      SharedOffsetInWindow(r, addr);
      (b - r.base) % U64Limit
    else
      (b - r.base) % U64Limit
  }

  lemma SharedOffsetInWindow(r: Region, addr: u64)
    requires r.Valid() && r.Contains(addr)
    ensures var b := PageBase(r, addr);
      && r.base <= b && (b - r.base) % U64Limit == b - r.base
      && (b - r.base) % r.PageSize() == 0
      && b - r.base + r.PageSize() <= r.size
  {
    var b := PageBase(r, addr);
    if b < r.base {
      AlignedGap(r.PageSize(), b, r.base);
    }
    AlignedSumDiff(r.PageSize(), b, r.base);
    AlignedSumDiff(r.PageSize(), r.base, r.size);
    if b < r.base + r.size {
      AlignedGap(r.PageSize(), b, r.base + r.size);
    }
    DivModUnique(b - r.base, U64Limit, 0, b - r.base);
  }

  /** An aligned offset whose page holds `addr` is its shared offset: the
      mask computation agrees with rounding `addr - base` down. */
  lemma SharedOffsetUnique(r: Region, addr: u64, o: nat)
    requires r.Valid() && r.Contains(addr)
    requires o % r.PageSize() == 0 && o <= addr - r.base < o + r.PageSize()
    ensures SharedOffset(r, addr) == o
    ensures o == (addr - r.base) - (addr - r.base) % r.PageSize()
  {
    AlignedUnique(r.PageSize(), addr - r.base, o, SharedOffset(r, addr));
  }

  /** The number of the page holding `addr`, counted from the base. */
  function PageIndex(r: Region, addr: u64): (p: nat)
    requires r.Valid() && r.Contains(addr)
    ensures p < r.PageCount() && p * r.PageSize() == SharedOffset(r, addr)
  {
    var o := SharedOffset(r, addr);
    IndexOfAligned(r.PageSize(), o, r.size);
    o / r.PageSize()
  }

  /** What an access to a page does: fault, or reach the page's bytes. */
  datatype PageState = Unmapped | Resident(data: seq<byte>)

  /** Protection and contents of every page of the window, by page number. */
  type Memory = seq<PageState>

  predicate Fits(r: Region, mem: Memory)
  {
    && |mem| == r.PageCount()
    && forall p :: 0 <= p < |mem| && mem[p].Resident? ==> |mem[p].data| == r.PageSize()
  }

  /** The window right after `mprotect(PROT_NONE)`: no page accessible. */
  function Protected(r: Region): (mem: Memory)
    ensures Fits(r, mem)
    ensures forall p :: 0 <= p < |mem| ==> mem[p] == Unmapped
  {
    seq(r.PageCount(), _ => Unmapped)
  }

  /** A load from `addr`: the byte there, or None when its page is not
      accessible and the load faults. */
  function Load(r: Region, mem: Memory, addr: u64): Option<byte>
    requires r.Valid() && Fits(r, mem) && r.Contains(addr)
  {
    var p := PageIndex(r, addr);
    match mem[p]
    case Unmapped => None
    case Resident(data) => Some(data[addr - r.base - p * r.PageSize()])
  }

  /** A load faults exactly when its page is inaccessible; otherwise it
      reads the page's byte at the address's distance from the page base. */
  lemma LoadFaults(r: Region, mem: Memory, addr: u64)
    requires r.Valid() && Fits(r, mem) && r.Contains(addr)
    ensures Load(r, mem, addr).None? <==> mem[PageIndex(r, addr)] == Unmapped
    ensures Load(r, mem, addr).Some? ==>
      Load(r, mem, addr).value == mem[PageIndex(r, addr)].data[addr - r.base - SharedOffset(r, addr)]
  {
  }

  lemma FactorCancel(d: nat, a: nat, b: nat)
    requires d > 0 && a * d == b * d
    ensures a == b
  {
    if a < b {
      MulStep(d, a, b);
    } else if b < a {
      MulStep(d, b, a);
    }
  }

  /** Installing `page` as the page holding `addr` sets exactly the bytes of
      that page, and no other byte of the window changes. */
  lemma InstallPage(r: Region, mem: Memory, addr: u64, page: seq<byte>)
    requires r.Valid() && Fits(r, mem) && r.Contains(addr) && |page| == r.PageSize()
    ensures Fits(r, mem[PageIndex(r, addr) := Resident(page)])
    ensures forall a: u64 | r.Contains(a) ::
      Load(r, mem[PageIndex(r, addr) := Resident(page)], a)
      == if SharedOffset(r, addr) <= a - r.base < SharedOffset(r, addr) + r.PageSize()
         then Some(page[a - r.base - SharedOffset(r, addr)]) else Load(r, mem, a)
  {
    var o := SharedOffset(r, addr);
    var p := PageIndex(r, addr);
    var mem' := mem[p := Resident(page)];
    forall a: u64 | r.Contains(a)
      ensures Load(r, mem', a) == if o <= a - r.base < o + r.PageSize() then Some(page[a - r.base - o]) else Load(r, mem, a)
    {
      if o <= a - r.base < o + r.PageSize() {
        SharedOffsetUnique(r, a, o);
        FactorCancel(r.PageSize(), PageIndex(r, a), p);
      }
    }
  }

  /** Why the client process died. */
  datatype Fatal = ProtectFailed | ConnectionLost

  datatype Handled = Handled(sent: seq<byte>, mem: Memory, rest: seq<byte>) | HandlerDied(why: Fatal)

  /** The fault handler, for a fault at `addr` in the window with the
      server's replies `incoming` still unread: make the page accessible
      (`protectOk` is whether `mprotect` succeeded), send a page request for
      its offset, and fill the page with the next page-size incoming bytes. */
  function HandleFault(r: Region, mem: Memory, addr: u64, protectOk: bool, incoming: seq<byte>): (h: Handled)
    requires r.Valid() && Fits(r, mem) && r.Contains(addr)
    ensures h.HandlerDied? <==> !protectOk || |incoming| < r.PageSize()
    ensures !protectOk ==> h == HandlerDied(ProtectFailed)
    ensures h.Handled? ==>
      var o := SharedOffset(r, addr);
      && |h.sent| == PageRequestSize && h.sent[0] == CmdGetPage && LeValue(h.sent[1..]) == o
      && Fits(r, h.mem) && h.rest == incoming[r.PageSize()..]
      && forall a: u64 | r.Contains(a) ::
           Load(r, h.mem, a)
           == if o <= a - r.base < o + r.PageSize() then Some(incoming[a - r.base - o]) else Load(r, mem, a)
  {
    if !protectOk then HandlerDied(ProtectFailed)
    else if |incoming| < r.PageSize() then HandlerDied(ConnectionLost)
    else
      var page := incoming[..r.PageSize()];
      var o := SharedOffset(r, addr);
      InstallPage(r, mem, addr, page);
      Handled(PageRequest(o), mem[PageIndex(r, addr) := Resident(page)], incoming[r.PageSize()..])
  }

  datatype Touched = Touched(value: byte, sent: seq<byte>, mem: Memory, rest: seq<byte>) | TouchDied(why: Fatal)

  /** A load by the application from `addr`. A resident page answers at
      once; otherwise the load faults, the handler fetches the page, and the
      load is retried. `mprotect` on a page of the live window is taken to
      succeed. */
  function Touch(r: Region, mem: Memory, addr: u64, incoming: seq<byte>): (t: Touched)
    requires r.Valid() && Fits(r, mem) && r.Contains(addr)
    ensures t.Touched? ==> Fits(r, t.mem) && Load(r, t.mem, addr) == Some(t.value)
    ensures t.Touched? ==> |t.rest| <= |incoming| && |t.sent| % PageRequestSize == 0
    ensures Load(r, mem, addr).Some? ==> t.Touched? && t.sent == [] && t.mem == mem && t.rest == incoming
    ensures Load(r, mem, addr).None? ==> (t.Touched? <==> |incoming| >= r.PageSize())
  {
    match Load(r, mem, addr)
    case Some(v) => Touched(v, [], mem, incoming)
    case None =>
      match HandleFault(r, mem, addr, true, incoming)
      case HandlerDied(why) => TouchDied(why)
      case Handled(sent, mem', rest) => Touched(Load(r, mem', addr).value, sent, mem', rest)
  }

  predicate AllIn(r: Region, touches: seq<u64>)
  {
    forall i :: 0 <= i < |touches| ==> r.Contains(touches[i])
  }

  /** The values loaded, the bytes sent to the server, the final window and
      the unread server bytes of a run of loads; or why the process died. */
  datatype Run = Ran(values: seq<byte>, sent: seq<byte>, mem: Memory, rest: seq<byte>) | RunDied(why: Fatal)

  /** The application's loads from `touches`, in order. */
  function RunTouches(r: Region, mem: Memory, touches: seq<u64>, incoming: seq<byte>): (run: Run)
    requires r.Valid() && Fits(r, mem) && AllIn(r, touches)
    ensures run.Ran? ==> |run.values| == |touches| && Fits(r, run.mem)
    ensures run.Ran? ==> |run.sent| % PageRequestSize == 0 && |run.rest| <= |incoming|
    decreases |touches|
  {
    if touches == [] then Ran([], [], mem, incoming)
    else
      assert AllIn(r, touches[1..]);
      match Touch(r, mem, touches[0], incoming)
      case TouchDied(why) => RunDied(why)
      case Touched(v, sent, mem', rest) =>
        match RunTouches(r, mem', touches[1..], rest)
        case RunDied(why) => RunDied(why)
        case Ran(vs, sent', mem'', rest') =>
          AlignedSumDiff(PageRequestSize, |sent|, |sent'|);
          Ran([v] + vs, sent + sent', mem'', rest')
  }

  /** The client's session: every page of the window starts inaccessible,
      the loads run, and the disconnect command follows. */
  function ClientSession(r: Region, touches: seq<u64>, incoming: seq<byte>): (run: Run)
    requires r.Valid() && AllIn(r, touches)
    ensures run.Ran? ==> |run.values| == |touches| && |run.sent| % PageRequestSize == 1
    ensures run.Ran? ==> run.sent[|run.sent| - 1] == CmdDisconnect
  {
    var run := RunTouches(r, Protected(r), touches, incoming);
    if run.RunDied? then run
    else
      var n := |run.sent|;
      DivModUnique(n + 1, PageRequestSize, n / PageRequestSize, 1);
      Ran(run.values, run.sent + [CmdDisconnect], run.mem, run.rest)
  }

  /** Number of pages the client's test run loads from. */
  const TestPageCount: nat := 16

  /** The loads of the client's test run: byte 0x0A of each of the first
      sixteen 0x1000-byte pages of the window. */
  function TestTouches(r: Region): (touches: seq<u64>)
    requires r.Valid() && r.size >= TestPageCount * 0x1000
    ensures |touches| == TestPageCount && AllIn(r, touches)
    ensures forall i :: 0 <= i < TestPageCount ==> touches[i] - r.base == 0x000A + i * 0x1000
  {
    seq(TestPageCount, i requires 0 <= i < TestPageCount => r.base + 0x000A + i * 0x1000)
  }

  /** Offsets of the pages a run of loads fetches, in order: one per page
      that is not in `resident` when it is first loaded from. */
  function FirstFetches(r: Region, resident: set<nat>, touches: seq<u64>): (offsets: seq<u64>)
    requires r.Valid() && AllIn(r, touches)
    ensures |offsets| <= |touches|
    ensures forall j :: 0 <= j < |offsets| ==>
      && offsets[j] % r.PageSize() == 0 && offsets[j] + r.PageSize() <= r.size
      && offsets[j] / r.PageSize() !in resident
    ensures forall j, k :: 0 <= j < k < |offsets| ==> offsets[j] != offsets[k]
    decreases |touches|
  {
    if touches == [] then []
    else
      var p := PageIndex(r, touches[0]);
      if p in resident then FirstFetches(r, resident, touches[1..])
      else
        var o := SharedOffset(r, touches[0]);
        DivModUnique(o, r.PageSize(), p, 0);
        [o] + FirstFetches(r, resident + {p}, touches[1..])
  }
}

=== FILE: comms.dfy ===
/** Wrappers that move bytes, single bytes and 64-bit quadwords over the
    connection through the full-transfer loops. Quadwords travel in the
    machine's native order, taken here to be little-endian. */
module Comms {
  import opened Octets
  import opened Transfer

  /** `comms_get`: receive exactly `length` bytes. */
  method Get(stream: seq<byte>, at: nat, length: int, recv: (nat, nat) -> int)
    returns (status: Status, buffer: seq<byte>, calls: seq<int>, asked: seq<nat>)
    requires at <= |stream| && ReceivesFrom(recv, stream)
    ensures AskedRemaining(calls, asked, length, at, recv) && CallLog(calls, status)
    ensures status == Complete ==> NextOffset(calls, asked) == if length < 0 then 0 else length
    ensures status == Complete ==> length <= 0 || (at + length <= |stream| && buffer == stream[at .. at + length])
    ensures status == Complete ==> length > 0 || buffer == []
  {
    var transferred;
    status, transferred, buffer, calls, asked := ReadAll(stream, at, length, recv);
  }

  /** `comms_send`: send exactly `length` bytes of `buffer`. */
  method Send(buffer: seq<byte>, length: int, send: (nat, nat) -> int)
    returns (status: Status, chunks: seq<seq<byte>>, calls: seq<int>, asked: seq<nat>)
    requires length <= |buffer| && SendsAtMostAsked(send)
    ensures AskedRemaining(calls, asked, length, 0, send) && CallLog(calls, status)
    ensures status == Complete ==> NextOffset(calls, asked) == if length < 0 then 0 else length
    ensures status == Complete ==> Concat(chunks) == buffer[..if length < 0 then 0 else length]
  {
    var transferred;
    status, transferred, chunks, calls, asked := WriteAll(buffer, length, send);
  }

  /** `comms_sendb`: send the single byte `value`. */
  method SendByte(value: byte, send: (nat, nat) -> int)
    returns (status: Status, chunks: seq<seq<byte>>, calls: seq<int>, asked: seq<nat>)
    requires SendsAtMostAsked(send)
    ensures AskedRemaining(calls, asked, 1, 0, send) && CallLog(calls, status)
    ensures status == Complete ==> NextOffset(calls, asked) == 1
    ensures status == Complete ==> Concat(chunks) == [value]
  {
    var transferred;
    status, transferred, chunks, calls, asked := WriteAll([value], 1, send);
  }

  /** `comms_getb`: receive one byte and return it. */
  method GetByte(stream: seq<byte>, at: nat, recv: (nat, nat) -> int)
    returns (status: Status, value: byte, calls: seq<int>, asked: seq<nat>)
    requires at <= |stream| && ReceivesFrom(recv, stream)
    ensures AskedRemaining(calls, asked, 1, at, recv) && CallLog(calls, status)
    ensures status == Complete ==> NextOffset(calls, asked) == 1
    ensures status == Complete ==> at < |stream| && value == stream[at]
  {
    var transferred, buffer;
    status, transferred, buffer, calls, asked := ReadAll(stream, at, 1, recv);
    value := if status == Complete then buffer[0] else 0;
  }

  /** `comms_sendq`: send the 8 bytes of a quadword. */
  method SendQuad(value: u64, send: (nat, nat) -> int)
    returns (status: Status, chunks: seq<seq<byte>>, calls: seq<int>, asked: seq<nat>)
    requires SendsAtMostAsked(send)
    ensures AskedRemaining(calls, asked, PtrSize, 0, send) && CallLog(calls, status)
    ensures status == Complete ==> NextOffset(calls, asked) == PtrSize
    ensures status == Complete ==> |Concat(chunks)| == PtrSize && LeValue(Concat(chunks)) == value
  {
    var buffer := LeBytes(value, PtrSize);
    var transferred;
    status, transferred, chunks, calls, asked := WriteAll(buffer, PtrSize, send);
    assert buffer[..PtrSize] == buffer;
    QuadRoundTrip(value);
  }

  /** `comms_getq`: receive 8 bytes and reassemble the quadword. */
  method GetQuad(stream: seq<byte>, at: nat, recv: (nat, nat) -> int)
    returns (status: Status, value: u64, calls: seq<int>, asked: seq<nat>)
    requires at <= |stream| && ReceivesFrom(recv, stream)
    ensures AskedRemaining(calls, asked, PtrSize, at, recv) && CallLog(calls, status)
    ensures status == Complete ==> NextOffset(calls, asked) == PtrSize
    ensures status == Complete ==> at + PtrSize <= |stream|
    ensures status == Complete ==> LeBytes(value, PtrSize) == stream[at .. at + PtrSize]
  {
    var transferred, buffer;
    status, transferred, buffer, calls, asked := ReadAll(stream, at, PtrSize, recv);
    if status == Complete {
      Pow256Quad();
      value := LeValue(buffer);
      LeBytesOfValue(buffer);
    } else {
      value := 0;
    }
  }

  /** What `GetQuad` reassembles from the bytes `SendQuad(v)` put on the
      wire is `v` again. */
  lemma QuadLoopback(wire: seq<byte>, sent: u64, received: u64)
    requires |wire| == PtrSize && LeValue(wire) == sent
    requires LeBytes(received, PtrSize) == wire
    ensures received == sent
  {
    QuadRoundTrip(received);
  }
}

=== FILE: natarith.dfy ===
/** Facts about Euclidean division on naturals, shared by the byte-order and
    bit-operation models. */
module NatArith {

  /** Quotient and remainder are determined by any decomposition with the
      remainder in range. */
  lemma DivModUnique(v: int, d: int, q: int, r: int)
    requires d > 0 && 0 <= r < d && v == d * q + r
    ensures v / d == q && v % d == r
  {
    var k := q - v / d;
    assert d * k == v % d - r;
    assert k == 0;
  }

  /** The quotient of naturals is a natural. */
  lemma DivNonneg(x: nat, d: nat)
    requires d > 0
    ensures 0 <= x / d
  {
  }

  lemma MulDistributes(a: int, b: int, q1: int, r1: int)
    ensures a * (b * q1 + r1) == (a * b) * q1 + a * r1
  {
  }

  lemma MulBelow(a: nat, r1: nat, b: nat)
    requires r1 < b
    ensures a * r1 <= a * b - a
  {
    assert a * b - a * r1 == a * (b - r1);
    assert b - r1 >= 1;
  }

  /** Dividing by `a` and then by `b` is dividing by `a * b`; the remainder
      modulo `a * b` splits into a low part (mod `a`) and a high part. */
  lemma DivModSplit(v: nat, a: nat, b: nat)
    requires a > 0 && b > 0
    ensures v / a / b == v / (a * b)
    ensures v % (a * b) == v % a + a * ((v / a) % b)
  {
    var q, r := v / a, v % a;
    var q1, r1 := q / b, q % b;
    MulDistributes(a, b, q1, r1);
    MulBelow(a, r1, b);
    DivModUnique(v, a * b, q1, a * r1 + r);
  }

  /** Rounding down to a multiple of d gives a multiple of d. */
  lemma RoundDown(x: nat, d: nat)
    requires d > 0
    ensures (x - x % d) % d == 0
  {
    DivModUnique(x - x % d, d, x / d, 0);
  }

  /** A difference and a sum of multiples of d are multiples of d. */
  lemma AlignedSumDiff(d: nat, x: nat, y: nat)
    requires d > 0 && x % d == 0 && y % d == 0
    ensures (x + y) % d == 0
    ensures y <= x ==> (x - y) % d == 0
  {
    var a, b := x / d, y / d;
    assert x == d * a && y == d * b;
    assert x + y == d * (a + b);
    DivModUnique(x + y, d, a + b, 0);
    if y <= x {
      assert x - y == d * (a - b);
      DivModUnique(x - y, d, a - b, 0);
    }
  }

  /** Two distinct multiples of d are at least d apart. */
  lemma AlignedGap(d: nat, x: nat, y: nat)
    requires d > 0 && x % d == 0 && y % d == 0 && x < y
    ensures x + d <= y
  {
    var a, b := x / d, y / d;
    assert x == d * a && y == d * b;
    FactorBelow(d, a, b);
    MulStep(d, a, b);
  }

  lemma MulStep(d: nat, a: nat, b: nat)
    requires a < b
    ensures d * a + d <= d * b
    decreases b - a
  {
    assert d * (a + 1) == d * a + d;
    if a + 1 < b {
      MulStep(d, a + 1, b);
    }
  }

  /** A multiple of d below d * b has a factor below b. */
  lemma FactorBelow(d: nat, a: nat, b: nat)
    requires d > 0 && d * a < d * b
    ensures a < b
  {
  }

  /** A multiple of d that leaves room for one more d below a multiple `n`
      of d is d times a quotient below n / d. */
  lemma IndexOfAligned(d: nat, o: nat, n: nat)
    requires d > 0 && o % d == 0 && n % d == 0 && o + d <= n
    ensures (o / d) * d == o && o / d < n / d
  {
    var q, c := o / d, n / d;
    assert o == d * q;
    assert n == d * c;
    FactorBelow(d, q, c);
  }

  /** Multiples of d each lying within d below the same x are equal. */
  lemma AlignedUnique(d: nat, x: nat, o: nat, o': nat)
    requires d > 0 && o % d == 0 && o' % d == 0
    requires o <= x < o + d && o' <= x < o' + d
    ensures o == o' && o == x - x % d
  {
    if o < o' {
      AlignedGap(d, o, o');
    } else if o' < o {
      AlignedGap(d, o', o);
    }
    assert o == d * (o / d);
    DivModUnique(x, d, o / d, x - o);
  }
}

=== FILE: octets.dfy ===
/** Bytes, unsigned 64-bit words, and the little-endian byte order in which
    the netmem client and server exchange page offsets. The machine's
    native order is taken to be little-endian, so the quadword helpers of
    the transport use the same encoding. */
module Octets {
  import opened NatArith

  /** `uint8`. */
  type byte = x: int | 0 <= x < 0x100

  /** 2^64, the number of `uint64` values. */
  const U64Limit: nat := 0x1_0000_0000_0000_0000

  /** `uint64`. */
  type u64 = x: int | 0 <= x < U64Limit

  /** Number of bytes in a pointer-sized quadword (`PTR_SIZE`). */
  const PtrSize: nat := 8

  function Pow256(n: nat): (r: nat)
    ensures r > 0
  {
    if n == 0 then 1 else 256 * Pow256(n - 1)
  }

  lemma Pow256Quad()
    ensures Pow256(PtrSize) == U64Limit
  {
    assert Pow256(2) == 0x1_0000;
    assert Pow256(4) == 0x1_0000_0000;
    assert Pow256(6) == 0x1_0000_0000_0000;
  }

  /** The number a byte string denotes when read least significant byte
      first: s[0] + 256 * s[1] + 256^2 * s[2] + ... */
  function LeValue(s: seq<byte>): (v: nat)
    ensures v < Pow256(|s|)
  {
    if s == [] then 0 else s[0] + 256 * LeValue(s[1..])
  }

  /** The `n` low-order bytes of `v`, least significant first. */
  function LeBytes(v: nat, n: nat): (s: seq<byte>)
    ensures |s| == n
  {
    if n == 0 then [] else [v % 256] + LeBytes(v / 256, n - 1)
  }

  /** Byte `i` of the encoding is `(v >> 8i) & 0xFF`, written arithmetically. */
  lemma {:induction false} LeBytesAt(v: nat, n: nat, i: nat)
    requires i < n
    ensures LeBytes(v, n)[i] == (v / Pow256(i)) % 256
  {
    if i > 0 {
      LeBytesAt(v / 256, n - 1, i - 1);
      DivModSplit(v, 256, Pow256(i - 1));
    }
  }

  /** Decoding an encoding keeps exactly the `n` low-order bytes of `v`. */
  lemma {:induction false} LeValueOfBytes(v: nat, n: nat)
    ensures LeValue(LeBytes(v, n)) == v % Pow256(n)
  {
    if n > 0 {
      var s := LeBytes(v, n);
      assert s[1..] == LeBytes(v / 256, n - 1);
      LeValueOfBytes(v / 256, n - 1);
      DivModSplit(v, 256, Pow256(n - 1));
    }
  }

  /** Encoding a decoded string gives the string back: every byte string of
      length n is the encoding of exactly one number below 256^n. */
  lemma {:induction false} LeBytesOfValue(s: seq<byte>)
    ensures LeBytes(LeValue(s), |s|) == s
  {
    if s != [] {
      var rest := LeValue(s[1..]);
      DivModUnique(LeValue(s), 256, rest, s[0]);
      LeBytesOfValue(s[1..]);
      assert LeBytes(LeValue(s), |s|) == [s[0]] + s[1..];
    }
  }

  /** Every 64-bit value survives the 8-byte little-endian round trip. */
  lemma QuadRoundTrip(v: u64)
    ensures LeValue(LeBytes(v, PtrSize)) == v
  {
    LeValueOfBytes(v, PtrSize);
    Pow256Quad();
  }

  /** Appending a byte adds it at the next-higher significance. */
  lemma {:induction false} LeValueSnoc(s: seq<byte>, x: byte)
    ensures LeValue(s + [x]) == LeValue(s) + x * Pow256(|s|)
  {
    if s == [] {
      assert LeValue([x]) == x + 256 * LeValue([]);
    } else {
      assert (s + [x])[1..] == s[1..] + [x];
      LeValueSnoc(s[1..], x);
      assert 256 * (x * Pow256(|s| - 1)) == x * Pow256(|s|);
    }
  }

  /** The concatenation of a sequence of chunks, in order. */
  function Concat<T>(chunks: seq<seq<T>>): (r: seq<T>)
  {
    if chunks == [] then [] else chunks[0] + Concat(chunks[1..])
  }

  lemma {:induction false} ConcatSnoc<T>(chunks: seq<seq<T>>, c: seq<T>)
    ensures Concat(chunks + [c]) == Concat(chunks) + c
  {
    if chunks != [] {
      assert (chunks + [c])[1..] == chunks[1..] + [c];
      ConcatSnoc(chunks[1..], c);
    }
  }
}

=== FILE: server.dfy ===
/** The netmem server: a backing store filled with a per-page pattern, and
    the command loop that serves page reads from it until the client
    disconnects. The loop is a pure interpreter from the bytes the client
    sends to the bytes the server replies. */
module Server {
  import opened NatArith
  import opened Octets
  import opened Bits
  import opened Wire
  import Transfer

  /** Size of a page of the backing store. */
  const PageSize: nat := 0x1000

  /** The byte every position of page `i` starts with: `0xA0 + i`, truncated
      to a byte by `memset`. */
  function FillByte(i: nat): byte
  {
    (0xA0 + i) % 256
  }

  /** Every byte of every complete page of `store` holds its page's fill byte. */
  ghost predicate Patterned(store: seq<byte>)
  {
    forall k :: 0 <= k < |store| - |store| % PageSize ==> store[k] == FillByte(k / PageSize)
  }

  /** Allocation and fill of the backing store. Only complete pages are
      filled; the bytes of a final partial page are left as allocated, which
      the model takes as the parameter `residue`. */
  method InitStore(regionSize: nat, residue: seq<byte>) returns (store: seq<byte>)
    requires |residue| == regionSize % PageSize
    ensures |store| == regionSize
    ensures Patterned(store)
    ensures store[regionSize - |residue|..] == residue
  {
    store := [];
    var i := 0;
    while i < regionSize / PageSize
      invariant 0 <= i <= regionSize / PageSize
      invariant |store| == i * PageSize
      invariant forall k :: 0 <= k < |store| ==> store[k] == FillByte(k / PageSize)
    {
      var block := seq(PageSize, _ => FillByte(i));
      forall k | |store| <= k < |store| + PageSize
        ensures k / PageSize == i
      {
        DivModUnique(k, PageSize, i, k - i * PageSize);
      }
      store := store + block;
      i := i + 1;
    }
    DivModUnique(regionSize, PageSize, regionSize / PageSize, regionSize % PageSize);
    store := store + residue;
  }

  /** The server loop's reassembly of a page offset from 8 received bytes:
      byte i is shifted left by `i << 3` bits and OR-ed in. */
  method AssembleOffset(buffer: seq<byte>) returns (offset: u64)
    requires |buffer| == PageOffsetSize
    ensures offset == LeValue(buffer)
    ensures LeBytes(offset, PageOffsetSize) == buffer
  {
    assert Pow2(3) == 8;
    var acc: nat := 0;
    for i := 0 to PageOffsetSize
      invariant acc == LeValue(buffer[..i])
    {
      Pow256IsPow2(i);
      OrDisjoint(acc, buffer[i], Shl(i, 3));
      LeValueSnoc(buffer[..i], buffer[i]);
      assert buffer[..i + 1] == buffer[..i] + [buffer[i]];
      acc := Or(acc, Shl(buffer[i], Shl(i, 3)));
    }
    assert buffer[..PageOffsetSize] == buffer;
    Pow256Quad();
    offset := acc;
    LeBytesOfValue(buffer);
  }

  /** Why the command loop stopped. */
  datatype Halt =
      /** A disconnect command: the loop ends normally. */
    | Disconnected
      /** A read of the client's stream failed, and with it the server:
          in this model the stream ends inside a command, so the read's
          status is `Transfer.PeerClosed`. */
    | ReadDied(why: Transfer.Failure)
      /** An opcode the loop does not know: the server dies. */
    | UnknownCommand(op: byte)
      /** A page request whose page runs past the end of the store. The code
          reads it without a bounds check; C leaves the result undefined, so
          the model stops here. */
    | OutOfBounds(offset: u64)

  /** The bytes the loop sent, how many input bytes it consumed, and why it
      stopped. */
  datatype Served = Served(output: seq<byte>, consumed: nat, halt: Halt)

  /** The command loop run over the client's byte stream `input`. */
  function Serve(store: seq<byte>, input: seq<byte>): (r: Served)
    ensures r.consumed <= |input| && |r.output| % PageSize == 0
    ensures r.halt.ReadDied? ==> r.halt.why == Transfer.PeerClosed && r.consumed == |input|
    ensures r.halt.Disconnected? ==> 0 < r.consumed && input[r.consumed - 1] == CmdDisconnect
    ensures r.halt.UnknownCommand? ==>
      0 < r.consumed && input[r.consumed - 1] == r.halt.op && r.halt.op != CmdGetPage && r.halt.op != CmdDisconnect
    ensures r.halt.OutOfBounds? ==> PageRequestSize <= r.consumed && r.halt.offset + PageSize > |store|
    decreases |input|
  {
    if |input| == 0 then Served([], 0, ReadDied(Transfer.PeerClosed))
    else if input[0] == CmdGetPage then
      if |input| < PageRequestSize then Served([], |input|, ReadDied(Transfer.PeerClosed))
      else
        var offset := LeValue(input[1..PageRequestSize]);
        if offset + PageSize > |store| then Served([], PageRequestSize, OutOfBounds(offset))
        else
          var rest := Serve(store, input[PageRequestSize..]);
          Served(store[offset .. offset + PageSize] + rest.output, PageRequestSize + rest.consumed, rest.halt)
    else if input[0] == CmdDisconnect then Served([], 1, Disconnected)
    else Served([], 1, UnknownCommand(input[0]))
  }

  /** One page request: the loop consumes its 9 bytes, sends the 0x1000
      bytes of the store at the requested offset, and carries on. */
  lemma ServePageRequest(store: seq<byte>, offset: u64, rest: seq<byte>)
    requires offset + PageSize <= |store|
    ensures Serve(store, PageRequest(offset) + rest)
         == var r := Serve(store, rest);
            Served(store[offset .. offset + PageSize] + r.output, PageRequestSize + r.consumed, r.halt)
  {
    var input := PageRequest(offset) + rest;
    assert input[1..PageRequestSize] == PageRequest(offset)[1..];
    assert input[PageRequestSize..] == rest;
  }

  /** A request past the end of the store stops the loop before any of the
      page is sent. */
  lemma ServeOutOfBoundsRequest(store: seq<byte>, offset: u64, rest: seq<byte>)
    requires offset + PageSize > |store|
    ensures Serve(store, PageRequest(offset) + rest) == Served([], PageRequestSize, OutOfBounds(offset))
  {
    var input := PageRequest(offset) + rest;
    assert input[1..PageRequestSize] == PageRequest(offset)[1..];
  }

  /** A disconnect ends the loop: nothing after it is read, nothing is sent. */
  lemma ServeDisconnect(store: seq<byte>, rest: seq<byte>)
    ensures Serve(store, [CmdDisconnect] + rest) == Served([], 1, Disconnected)
  {
  }

  /** Any other opcode is fatal at once. */
  lemma ServeUnknownCommand(store: seq<byte>, op: byte, rest: seq<byte>)
    requires op != CmdGetPage && op != CmdDisconnect
    ensures Serve(store, [op] + rest) == Served([], 1, UnknownCommand(op))
  {
  }

  /** Every offset names a page lying wholly inside the store. */
  predicate InBounds(store: seq<byte>, offsets: seq<u64>)
  {
    forall j :: 0 <= j < |offsets| ==> offsets[j] + PageSize <= |store|
  }

  /** The store pages at the given offsets, back to back. */
  function Pages(store: seq<byte>, offsets: seq<u64>): (s: seq<byte>)
    requires InBounds(store, offsets)
    ensures |s| == PageSize * |offsets|
  {
    if offsets == [] then []
    else store[offsets[0] .. offsets[0] + PageSize] + Pages(store, offsets[1..])
  }

  /** A session of in-bounds page requests closed by a disconnect is answered
      with exactly the requested pages, in order, and nothing after the
      disconnect is read. */
  lemma {:induction false} ServeSession(store: seq<byte>, offsets: seq<u64>, tail: seq<byte>)
    requires InBounds(store, offsets)
    ensures Serve(store, Requests(offsets) + [CmdDisconnect] + tail)
         == Served(Pages(store, offsets), PageRequestSize * |offsets| + 1, Disconnected)
  {
    if offsets == [] {
      ServeDisconnect(store, tail);
    } else {
      var later := Requests(offsets[1..]) + [CmdDisconnect] + tail;
      assert Requests(offsets) + [CmdDisconnect] + tail == PageRequest(offsets[0]) + later;
      ServePageRequest(store, offsets[0], later);
      ServeSession(store, offsets[1..], tail);
    }
  }

  /** The offsets of the complete page requests at the head of a stream. */
  function LeadingRequests(input: seq<byte>): seq<u64>
    decreases |input|
  {
    if |input| >= PageRequestSize && input[0] == CmdGetPage then
      Pow256Quad();
      [LeValue(input[1..PageRequestSize])] + LeadingRequests(input[PageRequestSize..])
    else []
  }

  /** The loop consumed a run of in-bounds page requests and a disconnect,
      and sent exactly those pages. */
  ghost predicate ServedRequests(store: seq<byte>, input: seq<byte>)
  {
    var r := Serve(store, input);
    var offsets := LeadingRequests(input);
    && InBounds(store, offsets)
    && input[..r.consumed] == Requests(offsets) + [CmdDisconnect]
    && r.output == Pages(store, offsets)
  }

  /** A stream opening with a complete page request: its first 9 bytes are
      the request frame for the offset they carry, and that offset heads the
      stream's leading requests. */
  lemma RequestHead(input: seq<byte>)
    requires |input| >= PageRequestSize && input[0] == CmdGetPage
    ensures LeValue(input[1..PageRequestSize]) < U64Limit
    ensures var offset := LeValue(input[1..PageRequestSize]);
      && input[..PageRequestSize] == PageRequest(offset)
      && LeadingRequests(input) == [offset] + LeadingRequests(input[PageRequestSize..])
  {
    Pow256Quad();
    LeBytesOfValue(input[1..PageRequestSize]);
  }

  lemma ServedRequestStep(store: seq<byte>, input: seq<byte>)
    requires |input| >= PageRequestSize && input[0] == CmdGetPage
    requires Serve(store, input).halt == Disconnected
    requires ServedRequests(store, input[PageRequestSize..])
    ensures ServedRequests(store, input)
  {
    var r := Serve(store, input);
    var rest := input[PageRequestSize..];
    var offset := LeValue(input[1..PageRequestSize]);
    var r' := Serve(store, rest);
    assert offset + PageSize <= |store|;
    assert r == Served(store[offset .. offset + PageSize] + r'.output, PageRequestSize + r'.consumed, r'.halt);
    RequestHead(input);
    var offsets' := LeadingRequests(rest);
    assert ([offset] + offsets')[1..] == offsets';
    assert input[..r.consumed] == input[..PageRequestSize] + rest[..r'.consumed];
  }

  /** Conversely, a loop that ended in a disconnect read a run of in-bounds
      page requests and the disconnect, and sent exactly those pages. */
  lemma {:induction false} ServedSession(store: seq<byte>, input: seq<byte>)
    requires Serve(store, input).halt == Disconnected
    ensures ServedRequests(store, input)
    decreases |input|
  {
    if input[0] == CmdGetPage {
      ServedSession(store, input[PageRequestSize..]);
      ServedRequestStep(store, input);
    } else {
      assert input[0] == CmdDisconnect;
    }
  }

  /** Page j of the reply to a run of requests is the store page at the
      j-th requested offset. */
  lemma {:induction false} PagesAt(store: seq<byte>, offsets: seq<u64>, j: nat)
    requires InBounds(store, offsets) && j < |offsets|
    ensures Pages(store, offsets)[PageSize * j .. PageSize * (j + 1)] == store[offsets[j] .. offsets[j] + PageSize]
    decreases j
  {
    var first := store[offsets[0] .. offsets[0] + PageSize];
    assert InBounds(store, offsets[1..]) by {
      forall k | 0 <= k < |offsets[1..]| ensures offsets[1..][k] + PageSize <= |store| {
        assert offsets[1..][k] == offsets[k + 1];
      }
    }
    var later := Pages(store, offsets[1..]);
    assert Pages(store, offsets) == first + later;
    if j > 0 {
      PagesAt(store, offsets[1..], j - 1);
      assert offsets[1..][j - 1] == offsets[j];
      assert (first + later)[PageSize * j .. PageSize * (j + 1)] == later[PageSize * (j - 1) .. PageSize * j];
    }
  }

  /** The loop never writes the store, so any two requests for the same
      offset in one session are answered with the same bytes: the store page
      at that offset. */
  lemma ServeRepeatedRequest(store: seq<byte>, offsets: seq<u64>, i: nat, j: nat, tail: seq<byte>)
    requires InBounds(store, offsets) && i < |offsets| && j < |offsets| && offsets[i] == offsets[j]
    ensures var out := Serve(store, Requests(offsets) + [CmdDisconnect] + tail).output;
      && |out| == PageSize * |offsets|
      && out[PageSize * i .. PageSize * (i + 1)] == out[PageSize * j .. PageSize * (j + 1)]
      && out[PageSize * i .. PageSize * (i + 1)] == store[offsets[i] .. offsets[i] + PageSize]
  {
    ServeSession(store, offsets, tail);
    PagesAt(store, offsets, i);
    PagesAt(store, offsets, j);
  }
}

=== FILE: session.dfy ===
/** A whole netmem session: the client's loads, the page requests its fault
    handler sends, and the server's command loop answering them from its
    backing store, composed into one run. */
module Session {
  import opened NatArith
  import opened Octets
  import opened Bits
  import opened Wire
  import opened Server
  import opened Client

  /** Numbers of the pages of the window that are accessible. */
  function ResidentPages(mem: Memory): set<nat>
  {
    set p | 0 <= p < |mem| && mem[p].Resident?
  }

  /** Every accessible byte of the window holds the store byte at the same
      offset: the client's pages are copies of the server's. */
  ghost predicate Consistent(r: Region, mem: Memory, store: seq<byte>)
  {
    && r.Valid() && Fits(r, mem) && |store| == r.size
    && forall a: u64 | r.Contains(a) && Load(r, mem, a).Some? :: Load(r, mem, a).value == store[a - r.base]
  }

  /** A window in which no page is accessible is consistent with any store
      of its size. */
  lemma ProtectedConsistent(r: Region, store: seq<byte>)
    requires r.Valid() && |store| == r.size
    ensures Consistent(r, Protected(r), store)
    ensures ResidentPages(Protected(r)) == {}
  {
  }

  /** A load from an accessible page of a consistent window answers from the
      store without any traffic. */
  lemma TouchResident(r: Region, mem: Memory, store: seq<byte>, addr: u64, incoming: seq<byte>)
    requires Consistent(r, mem, store) && r.Contains(addr)
    requires PageIndex(r, addr) in ResidentPages(mem)
    ensures Touch(r, mem, addr, incoming) == Touched(store[addr - r.base], [], mem, incoming)
  {
    assert Load(r, mem, addr).Some?;
  }

  /** The window after the page holding `addr` is filled from the store and
      made accessible. */
  function FetchedMem(r: Region, mem: Memory, store: seq<byte>, addr: u64): Memory
    requires r.Valid() && Fits(r, mem) && r.Contains(addr) && |store| == r.size
  {
    var o := SharedOffset(r, addr);
    mem[PageIndex(r, addr) := Resident(store[o .. o + r.PageSize()])]
  }

  /** A load from an inaccessible page of a consistent window, with the
      server's copy of that page next on the connection: the handler asks for
      exactly that page, the load answers the store byte, the page becomes
      accessible and the window stays consistent. */
  lemma TouchFetch(r: Region, mem: Memory, store: seq<byte>, addr: u64, tail: seq<byte>)
    requires Consistent(r, mem, store) && r.Contains(addr)
    requires PageIndex(r, addr) !in ResidentPages(mem)
    ensures var o := SharedOffset(r, addr);
      var t := Touch(r, mem, addr, store[o .. o + r.PageSize()] + tail);
      && t.Touched? && t.value == store[addr - r.base]
      && t.sent == PageRequest(o) && t.rest == tail
      && t.mem == FetchedMem(r, mem, store, addr)
      && Consistent(r, t.mem, store)
      && ResidentPages(t.mem) == ResidentPages(mem) + {PageIndex(r, addr)}
  {
    var ps := r.PageSize();
    var o := SharedOffset(r, addr);
    var p := PageIndex(r, addr);
    var incoming := store[o .. o + ps] + tail;
    assert Load(r, mem, addr) == None;
    var page := incoming[..ps];
    assert page == store[o .. o + ps];
    assert incoming[ps..] == tail;
    var mem' := mem[p := Resident(page)];
    SharedOffsetUnique(r, addr, o);
    var h := HandleFault(r, mem, addr, true, incoming);
    assert h == Handled(PageRequest(o), mem', tail);
    assert Load(r, mem', addr) == Some(store[addr - r.base]);
    forall a: u64 | r.Contains(a) && Load(r, mem', a).Some?
      ensures Load(r, mem', a).value == store[a - r.base]
    {
      if o <= a - r.base < o + ps {
        assert Load(r, mem', a) == Some(incoming[a - r.base - o]);
      }
    }
    assert ResidentPages(mem') == ResidentPages(mem) + {p};
  }

  /** A run of loads against a connection carrying the server's copies of
      the pages it fetches: the client sends one page request per page not
      yet accessible when first loaded from, reads exactly those pages, and
      every load answers the store byte at the loaded offset. */
  ghost predicate RanAgainst(r: Region, mem: Memory, store: seq<byte>, touches: seq<u64>, tail: seq<byte>)
    requires Consistent(r, mem, store) && AllIn(r, touches)
  {
    var offsets := FirstFetches(r, ResidentPages(mem), touches);
    && InBounds(store, offsets)
    && var run := RunTouches(r, mem, touches, Pages(store, offsets) + tail);
    && run.Ran? && run.sent == Requests(offsets) && run.rest == tail
    && Consistent(r, run.mem, store)
    && forall i :: 0 <= i < |touches| ==> run.values[i] == store[touches[i] - r.base]
  }

  lemma {:induction false} RunAgainstStore(r: Region, mem: Memory, store: seq<byte>, touches: seq<u64>, tail: seq<byte>)
    requires Consistent(r, mem, store) && r.pageShift == 12 && AllIn(r, touches)
    ensures RanAgainst(r, mem, store, touches, tail)
    decreases |touches|
  {
    if touches == [] {
      assert Pages(store, []) + tail == tail;
    } else {
      var addr := touches[0];
      assert AllIn(r, touches[1..]);
      if PageIndex(r, addr) in ResidentPages(mem) {
        RunAgainstStore(r, mem, store, touches[1..], tail);
        ResidentStep(r, mem, store, touches, tail);
      } else {
        FetchedConsistent(r, mem, store, addr);
        RunAgainstStore(r, FetchedMem(r, mem, store, addr), store, touches[1..], tail);
        FetchStep(r, mem, store, touches, tail);
      }
    }
  }

  lemma FetchedConsistent(r: Region, mem: Memory, store: seq<byte>, addr: u64)
    requires Consistent(r, mem, store) && r.Contains(addr)
    requires PageIndex(r, addr) !in ResidentPages(mem)
    ensures Consistent(r, FetchedMem(r, mem, store, addr), store)
  {
    TouchFetch(r, mem, store, addr, []);
  }

  /** The step of RunAgainstStore for a first load from an accessible page. */
  lemma ResidentStep(r: Region, mem: Memory, store: seq<byte>, touches: seq<u64>, tail: seq<byte>)
    requires Consistent(r, mem, store) && r.pageShift == 12 && AllIn(r, touches) && touches != []
    requires PageIndex(r, touches[0]) in ResidentPages(mem)
    requires AllIn(r, touches[1..]) && RanAgainst(r, mem, store, touches[1..], tail)
    ensures RanAgainst(r, mem, store, touches, tail)
  {
    var offsets := FirstFetches(r, ResidentPages(mem), touches);
    assert offsets == FirstFetches(r, ResidentPages(mem), touches[1..]);
    var incoming := Pages(store, offsets) + tail;
    TouchResident(r, mem, store, touches[0], incoming);
    RunStep(r, mem, touches, incoming);
    ValuesStep(r, store, touches, RunTouches(r, mem, touches, incoming).values);
  }

  /** The step of RunAgainstStore for a first load from an inaccessible
      page. */
  lemma FetchStep(r: Region, mem: Memory, store: seq<byte>, touches: seq<u64>, tail: seq<byte>)
    requires Consistent(r, mem, store) && r.pageShift == 12 && AllIn(r, touches) && touches != []
    requires PageIndex(r, touches[0]) !in ResidentPages(mem)
    requires AllIn(r, touches[1..]) && Consistent(r, FetchedMem(r, mem, store, touches[0]), store)
    requires RanAgainst(r, FetchedMem(r, mem, store, touches[0]), store, touches[1..], tail)
    ensures RanAgainst(r, mem, store, touches, tail)
  {
    PageSizeIs4096(r);
    var addr := touches[0];
    var p := PageIndex(r, addr);
    var o := SharedOffset(r, addr);
    var offsets' := FirstFetches(r, ResidentPages(mem) + {p}, touches[1..]);
    var offsets := FirstFetches(r, ResidentPages(mem), touches);
    assert offsets == [o] + offsets';
    assert offsets[1..] == offsets';
    var rest := Pages(store, offsets') + tail;
    assert Pages(store, offsets) + tail == store[o .. o + PageSize] + rest;
    TouchFetch(r, mem, store, addr, rest);
    var incoming := Pages(store, offsets) + tail;
    RunStep(r, mem, touches, incoming);
    assert Requests(offsets) == PageRequest(o) + Requests(offsets');
    ValuesStep(r, store, touches, RunTouches(r, mem, touches, incoming).values);
  }

  /** A run of loads whose first load completes, and whose later loads
      complete, completes with the first load's results in front. */
  lemma RunStep(r: Region, mem: Memory, touches: seq<u64>, incoming: seq<byte>)
    requires r.Valid() && Fits(r, mem) && AllIn(r, touches) && touches != []
    ensures AllIn(r, touches[1..])
    ensures var t := Touch(r, mem, touches[0], incoming);
      t.Touched? ==>
        var later := RunTouches(r, t.mem, touches[1..], t.rest);
        later.Ran? ==>
          RunTouches(r, mem, touches, incoming)
          == Ran([t.value] + later.values, t.sent + later.sent, later.mem, later.rest)
  {
    assert AllIn(r, touches[1..]);
  }

  /** Loaded values that answer the store for the first load and for the
      later loads answer it for every load. */
  lemma ValuesStep(r: Region, store: seq<byte>, touches: seq<u64>, values: seq<byte>)
    requires |store| == r.size && AllIn(r, touches) && touches != [] && |values| == |touches|
    requires values[0] == store[touches[0] - r.base]
    requires forall i :: 0 <= i < |touches| - 1 ==> values[1..][i] == store[touches[1..][i] - r.base]
    ensures forall i :: 0 <= i < |touches| ==> values[i] == store[touches[i] - r.base]
  {
    forall i | 1 <= i < |touches|
      ensures values[i] == store[touches[i] - r.base]
    {
      assert values[1..][i - 1] == values[i] && touches[1..][i - 1] == touches[i];
    }
  }

  lemma PageSizeIs4096(r: Region)
    requires r.pageShift == 12
    ensures r.PageSize() == PageSize == ClientPageSize
  {
  }

  /** The client's side of a session fed the server's copies of the pages
      it fetches: starting with no page accessible, it sends one request per
      page first loaded from and the disconnect, loads the store's bytes,
      and leaves no reply unread. */
  lemma ClientAgainstStore(r: Region, store: seq<byte>, touches: seq<u64>)
    requires r.Valid() && r.pageShift == 12 && |store| == r.size && AllIn(r, touches)
    ensures var offsets := FirstFetches(r, {}, touches);
      && InBounds(store, offsets)
      && var run := ClientSession(r, touches, Pages(store, offsets));
      && run.Ran? && run.sent == Requests(offsets) + [CmdDisconnect] && run.rest == []
      && forall i :: 0 <= i < |touches| ==> run.values[i] == store[touches[i] - r.base]
  {
    ProtectedConsistent(r, store);
    RunAgainstStore(r, Protected(r), store, touches, []);
    var offsets := FirstFetches(r, {}, touches);
    var incoming := Pages(store, offsets);
    assert incoming + [] == incoming;
    SessionOfRun(r, touches, incoming);
  }

  /** A session whose loads complete sends their requests and then the
      disconnect. */
  lemma SessionOfRun(r: Region, touches: seq<u64>, incoming: seq<byte>)
    requires r.Valid() && AllIn(r, touches)
    ensures var run := RunTouches(r, Protected(r), touches, incoming);
      run.Ran? ==> ClientSession(r, touches, incoming) == Ran(run.values, run.sent + [CmdDisconnect], run.mem, run.rest)
  {
  }

  /** The whole session: the client, starting with no page accessible, runs
      its loads and disconnects; the server, reading what the client sent,
      answers every request with the page asked for and stops at the
      disconnect; and fed the server's replies, the client loads the store's
      bytes and leaves no reply unread. */
  lemma EndToEnd(r: Region, store: seq<byte>, touches: seq<u64>)
    requires r.Valid() && r.pageShift == 12 && |store| == r.size && AllIn(r, touches)
    ensures var offsets := FirstFetches(r, {}, touches);
      var wire := Requests(offsets) + [CmdDisconnect];
      && InBounds(store, offsets)
      && Serve(store, wire) == Served(Pages(store, offsets), |wire|, Disconnected)
      && var run := ClientSession(r, touches, Serve(store, wire).output);
      && run.Ran? && run.sent == wire && run.rest == []
      && forall i :: 0 <= i < |touches| ==> run.values[i] == store[touches[i] - r.base]
  {
    ClientAgainstStore(r, store, touches);
    var offsets := FirstFetches(r, {}, touches);
    var wire := Requests(offsets) + [CmdDisconnect];
    ServeSession(store, offsets, []);
    assert wire + [] == wire;
  }

  /** Loads from pages that are pairwise different and none of them
      accessible each fetch their own page, in order. */
  lemma {:induction false} FetchesOfDistinctPages(r: Region, resident: set<nat>, touches: seq<u64>)
    requires r.Valid() && AllIn(r, touches)
    requires forall i :: 0 <= i < |touches| ==> PageIndex(r, touches[i]) !in resident
    requires forall i, j :: 0 <= i < j < |touches| ==> PageIndex(r, touches[i]) != PageIndex(r, touches[j])
    ensures FirstFetches(r, resident, touches) == seq(|touches|, i requires 0 <= i < |touches| => SharedOffset(r, touches[i]))
    decreases |touches|
  {
    if touches != [] {
      var later := touches[1..];
      assert AllIn(r, later);
      var p := PageIndex(r, touches[0]);
      forall i | 0 <= i < |later|
        ensures PageIndex(r, later[i]) !in resident + {p}
      {
        assert later[i] == touches[i + 1];
      }
      FetchesOfDistinctPages(r, resident + {p}, later);
    }
  }

  /** The loads of the client's test run fall on pages 0 to 15, one each,
      and so fetch those pages in order. */
  lemma TestFetches(r: Region)
    requires r.Valid() && r.pageShift == 12 && r.size >= TestPageCount * 0x1000
    ensures var offsets := FirstFetches(r, {}, TestTouches(r));
      |offsets| == TestPageCount && forall i :: 0 <= i < TestPageCount ==> offsets[i] == i * 0x1000
  {
    PageSizeIs4096(r);
    var touches := TestTouches(r);
    forall i | 0 <= i < TestPageCount
      ensures PageIndex(r, touches[i]) == i && SharedOffset(r, touches[i]) == i * 0x1000
    {
      SharedOffsetUnique(r, touches[i], i * 0x1000);
      DivModUnique(i * 0x1000, 0x1000, i, 0);
    }
    FetchesOfDistinctPages(r, {}, touches);
  }

  /** The fill bytes of pages 0 to 15, in order. */
  function TestFills(): (fills: seq<byte>)
    ensures |fills| == TestPageCount && forall i :: 0 <= i < TestPageCount ==> fills[i] == FillByte(i)
  {
    seq(TestPageCount, i requires 0 <= i => FillByte(i))
  }

  /** Byte 0x0A of page i of a patterned store of whole pages is the fill
      byte of page i. */
  lemma TestBytes(r: Region, store: seq<byte>)
    requires r.Valid() && r.pageShift == 12 && |store| == r.size && r.size >= TestPageCount * 0x1000
    requires Patterned(store)
    ensures forall i :: 0 <= i < |TestTouches(r)| ==> store[TestTouches(r)[i] - r.base] == TestFills()[i]
  {
    forall i | 0 <= i < |TestTouches(r)|
      ensures store[TestTouches(r)[i] - r.base] == TestFills()[i]
    {
      TestByte(r, store, i);
    }
  }

  lemma TestByte(r: Region, store: seq<byte>, i: nat)
    requires r.Valid() && r.pageShift == 12 && |store| == r.size && r.size >= TestPageCount * 0x1000
    requires Patterned(store) && i < TestPageCount
    ensures store[TestTouches(r)[i] - r.base] == FillByte(i)
  {
    PageSizeIs4096(r);
    assert TestTouches(r)[i] - r.base == i * PageSize + 0x000A;
    PatternedAt(store, i, 0x000A);
  }

  /** In a patterned store of whole pages, byte j of page i holds the fill
      byte of page i. */
  lemma PatternedAt(store: seq<byte>, i: nat, j: nat)
    requires Patterned(store) && |store| % PageSize == 0
    requires j < PageSize && i * PageSize + j < |store|
    ensures store[i * PageSize + j] == FillByte(i)
  {
    DivModUnique(i * PageSize + j, PageSize, i, j);
  }

  /** A session that sends the test run's sixteen page requests and the
      disconnect sends 145 bytes, the last of them the disconnect. */
  lemma TestSent(offsets: seq<u64>, sent: seq<byte>)
    requires |offsets| == TestPageCount && sent == Requests(offsets) + [CmdDisconnect]
    ensures |sent| == 145 && sent[144] == CmdDisconnect
  {
  }

  /** A whole client session fed the server's copies of the pages it
      fetches loads exactly the given bytes when those are the store bytes
      under its loads. */
  lemma SessionLoads(r: Region, store: seq<byte>, touches: seq<u64>, expected: seq<byte>)
    requires r.Valid() && r.pageShift == 12 && |store| == r.size && AllIn(r, touches)
    requires |expected| == |touches|
    requires forall i :: 0 <= i < |touches| ==> store[touches[i] - r.base] == expected[i]
    ensures var offsets := FirstFetches(r, {}, touches);
      && InBounds(store, offsets)
      && var run := ClientSession(r, touches, Pages(store, offsets));
      && run.Ran? && run.sent == Requests(offsets) + [CmdDisconnect] && run.values == expected
  {
    ClientAgainstStore(r, store, touches);
  }

  /** The client's side of the test run against a store holding the fill
      byte of page i under load i: it sends its requests and the
      disconnect, and load i answers that fill byte. */
  lemma TestSession(r: Region, store: seq<byte>)
    requires r.Valid() && r.pageShift == 12 && |store| == r.size && r.size >= TestPageCount * 0x1000
    requires forall i :: 0 <= i < |TestTouches(r)| ==> store[TestTouches(r)[i] - r.base] == TestFills()[i]
    ensures var touches := TestTouches(r);
      var offsets := FirstFetches(r, {}, touches);
      && InBounds(store, offsets)
      && var run := ClientSession(r, touches, Pages(store, offsets));
      && run.Ran? && run.sent == Requests(offsets) + [CmdDisconnect]
      && forall i :: 0 <= i < TestPageCount ==> run.values[i] == FillByte(i)
  {
    SessionLoads(r, store, TestTouches(r), TestFills());
  }

  /** The client's test run against a patterned store: load i answers the
      fill byte of page i, the client asks for pages 0 to 15 in order, and
      sends 16 page requests and the disconnect, 145 bytes. */
  lemma TestRun(r: Region, store: seq<byte>)
    requires r.Valid() && r.pageShift == 12 && |store| == r.size && r.size >= TestPageCount * 0x1000
    requires Patterned(store)
    ensures var touches := TestTouches(r);
      var offsets := FirstFetches(r, {}, touches);
      && |offsets| == TestPageCount && (forall i :: 0 <= i < TestPageCount ==> offsets[i] == i * 0x1000)
      && var run := ClientSession(r, touches, Pages(store, offsets));
      && run.Ran? && |run.sent| == 145 && run.sent[144] == CmdDisconnect
      && forall i :: 0 <= i < TestPageCount ==> run.values[i] == FillByte(i)
  {
    var offsets := FirstFetches(r, {}, TestTouches(r));
    TestFetches(r);
    TestBytes(r, store);
    TestSession(r, store);
    TestSent(offsets, ClientSession(r, TestTouches(r), Pages(store, offsets)).sent);
  }

  /** A single load at offset 0x300A of a window backed by a 16-page
      patterned store answers 0xA3, the fill byte of page 3. */
  lemma TouchPageThree(r: Region, store: seq<byte>)
    requires r.Valid() && r.pageShift == 12 && |store| == r.size == 0x10000
    requires Patterned(store)
    ensures var touches := [r.base + 0x300A];
      var run := ClientSession(r, touches, Pages(store, FirstFetches(r, {}, touches)));
      run.Ran? && run.values == [0xA3]
  {
    var touches := [r.base + 0x300A];
    ClientAgainstStore(r, store, touches);
    DivModUnique(0x300A, PageSize, 3, 0x00A);
  }
}

=== FILE: transfer.dfy ===
/** The full-transfer loops of the transport layer: call the socket until
    exactly the requested number of bytes has moved. A call that returns 0
    (the peer disconnected) or -1 (an error) ends the process, so it is
    reported as a fatal status and never retried. The socket itself is an
    oracle: a function giving the count each call returns. */
module Transfer {
  import opened Octets

  /** How a transfer ended: every byte moved, or the process died because
      a call returned 0 or -1. */
  datatype Status = Complete | PeerClosed | IoError

  /** The statuses that end the process. */
  type Failure = s: Status | s != Complete witness PeerClosed

  /** The status a call's return value leads to. */
  function StatusOf(delta: int): Status
  {
    if delta == 0 then PeerClosed else if delta == -1 then IoError else Complete
  }

  /** A sending transport: asked to take `count` bytes once `offset` bytes of
      the buffer have gone, it takes at most `count` of them, or fails. */
  ghost predicate SendsAtMostAsked(send: (nat, nat) -> int)
  {
    forall offset: nat, count: nat :: -1 <= send(offset, count) <= count
  }

  /** A receiving transport over the byte stream the peer sends: asked for
      `count` bytes at stream position `at`, it delivers at most that many,
      never past the end of what the peer sent, or fails. */
  ghost predicate ReceivesFrom(recv: (nat, nat) -> int, stream: seq<byte>)
  {
    forall at: nat, count: nat :: at <= |stream| ==>
      -1 <= recv(at, count) <= count && at + recv(at, count) <= |stream|
  }

  /** The call log of a transfer that ended with `status`: every call but a
      failing last one moved at least one byte. */
  predicate CallLog(calls: seq<int>, status: Status)
  {
    && (forall j :: 0 <= j < |calls| - 1 ==> calls[j] > 0)
    && (status == Complete ==> forall j :: 0 <= j < |calls| ==> calls[j] > 0)
    && (status != Complete ==> |calls| > 0 && StatusOf(calls[|calls| - 1]) == status)
  }

  /** The calls of a transfer of `total` bytes against the transport `call`,
      where call j was made `asked[j]` bytes into the transfer: the first
      at 0, each later one just past what the one before it moved, and each
      asking, at position `base + asked[j]`, for every byte still to move. */
  predicate AskedRemaining(calls: seq<int>, asked: seq<nat>, total: int, base: nat, call: (nat, nat) -> int)
  {
    && |asked| == |calls| && (|calls| > 0 ==> asked[0] == 0)
    && (forall j :: 0 <= j < |calls| ==> asked[j] < total && calls[j] == call(base + asked[j], total - asked[j]))
    && (forall j :: 0 <= j < |calls| - 1 ==> asked[j + 1] == asked[j] + calls[j])
  }

  /** How far into the transfer the next call is made, once `calls` have
      been made at `asked`. */
  function NextOffset(calls: seq<int>, asked: seq<nat>): int
    requires |asked| == |calls|
  {
    if calls == [] then 0 else asked[|calls| - 1] + calls[|calls| - 1]
  }

  /** A further call, made where the log says the next one goes and asking
      for the bytes still to move, extends the log. */
  lemma AskedStep(calls: seq<int>, asked: seq<nat>, total: int, base: nat, call: (nat, nat) -> int, delta: int)
    requires AskedRemaining(calls, asked, total, base, call)
    requires 0 <= NextOffset(calls, asked) < total
    requires delta == call(base + NextOffset(calls, asked), total - NextOffset(calls, asked))
    ensures AskedRemaining(calls + [delta], asked + [NextOffset(calls, asked) as nat], total, base, call)
    ensures NextOffset(calls + [delta], asked + [NextOffset(calls, asked) as nat]) == NextOffset(calls, asked) + delta
  {
  }

  /** The chunks a transport accepted, one per call that moved bytes,
      each as long as that call said, concatenating to `sent`. */
  predicate Accepted(chunks: seq<seq<byte>>, calls: seq<int>, sent: seq<byte>)
  {
    && Concat(chunks) == sent && |chunks| == |calls|
    && forall j :: 0 <= j < |chunks| ==> calls[j] > 0 && |chunks[j]| == calls[j]
  }

  /** A call that moved `delta` more bytes of the buffer extends the
      accepted chunks by those bytes. */
  lemma AcceptedStep(chunks: seq<seq<byte>>, calls: seq<int>, buffer: seq<byte>, offset: nat, delta: int)
    requires 0 < delta && offset + delta <= |buffer| && Accepted(chunks, calls, buffer[..offset])
    ensures Accepted(chunks + [buffer[offset .. offset + delta]], calls + [delta], buffer[..offset + delta])
  {
    ConcatSnoc(chunks, buffer[offset .. offset + delta]);
    assert buffer[..offset] + buffer[offset .. offset + delta] == buffer[..offset + delta];
  }

  /** `write_socket_blocking`: sends `buffer[0 .. bytesToWrite)` and returns
      the transport's answers, the offset each call was made at, and the
      chunks it accepted, in order. Every call asks the transport for all
      the bytes not yet sent. */
  method WriteAll(buffer: seq<byte>, bytesToWrite: int, send: (nat, nat) -> int)
    returns (status: Status, bytesWritten: nat, chunks: seq<seq<byte>>, calls: seq<int>, asked: seq<nat>)
    requires bytesToWrite <= |buffer|
    requires SendsAtMostAsked(send)
    ensures AskedRemaining(calls, asked, bytesToWrite, 0, send)
    ensures CallLog(calls, status)
    ensures status == Complete ==> NextOffset(calls, asked) == bytesWritten
    ensures status == Complete <==> bytesWritten == if bytesToWrite < 0 then 0 else bytesToWrite
    ensures bytesWritten <= |buffer| && Concat(chunks) == buffer[..bytesWritten]
    ensures |chunks| == |calls| - (if status == Complete then 0 else 1)
    ensures forall j :: 0 <= j < |chunks| ==> |chunks[j]| == calls[j]
    ensures bytesToWrite <= 0 ==> calls == []
  {
    var offset: nat := 0;
    var count: int := bytesToWrite;
    chunks, calls, asked := [], [], [];
    while offset < bytesToWrite
      invariant offset + count == bytesToWrite
      invariant AskedRemaining(calls, asked, bytesToWrite, 0, send)
      invariant NextOffset(calls, asked) == offset
      invariant 0 <= offset <= bytesToWrite || (bytesToWrite < 0 && offset == 0)
      invariant offset <= |buffer| && Accepted(chunks, calls, buffer[..offset])
      decreases count
    {
      var delta := send(offset, count);
      AskedStep(calls, asked, bytesToWrite, 0, send, delta);
      calls, asked := calls + [delta], asked + [offset];
      if delta <= 0 {
        return StatusOf(delta), offset, chunks, calls, asked;
      }
      AcceptedStep(chunks, calls[..|calls| - 1], buffer, offset, delta);
      assert calls[..|calls| - 1] + [delta] == calls;
      chunks := chunks + [buffer[offset .. offset + delta]];
      offset := offset + delta;
      count := count - delta;
    }
    status, bytesWritten := Complete, offset;
  }

  /** `read_socket_blocking`: receives `bytesToRead` bytes from position `at`
      of the peer's stream into a fresh buffer, and returns the transport's
      answers and the buffer offset each call was made at. Every call asks
      the transport for all the bytes not yet received. */
  method ReadAll(stream: seq<byte>, at: nat, bytesToRead: int, recv: (nat, nat) -> int)
    returns (status: Status, bytesRead: nat, buffer: seq<byte>, calls: seq<int>, asked: seq<nat>)
    requires at <= |stream|
    requires ReceivesFrom(recv, stream)
    ensures AskedRemaining(calls, asked, bytesToRead, at, recv)
    ensures CallLog(calls, status)
    ensures status == Complete ==> NextOffset(calls, asked) == bytesRead
    ensures status == Complete <==> bytesRead == if bytesToRead < 0 then 0 else bytesToRead
    ensures at + bytesRead <= |stream| && buffer == stream[at .. at + bytesRead]
    ensures bytesToRead <= 0 ==> calls == []
  {
    var offset: nat := 0;
    var count: int := bytesToRead;
    buffer, calls, asked := [], [], [];
    while offset < bytesToRead
      invariant offset + count == bytesToRead
      invariant AskedRemaining(calls, asked, bytesToRead, at, recv)
      invariant NextOffset(calls, asked) == offset
      invariant 0 <= offset <= bytesToRead || (bytesToRead < 0 && offset == 0)
      invariant at + offset <= |stream| && buffer == stream[at .. at + offset]
      invariant forall j :: 0 <= j < |calls| ==> calls[j] > 0
      invariant |calls| <= offset
      decreases count
    {
      var delta := recv(at + offset, count);
      AskedStep(calls, asked, bytesToRead, at, recv, delta);
      calls, asked := calls + [delta], asked + [offset];
      if delta <= 0 {
        return StatusOf(delta), offset, buffer, calls, asked;
      }
      buffer := buffer + stream[at + offset .. at + offset + delta];
      offset := offset + delta;
      count := count - delta;
    }
    status, bytesRead := Complete, offset;
  }

  /** A transport that takes every byte it is asked for. */
  function EagerSend(offset: nat, count: nat): int
  {
    count
  }

  /** A transport that delivers every byte asked for that the peer sent. */
  function EagerRecv(stream: seq<byte>): (nat, nat) -> int
  {
    (p: nat, count: nat) => if p + count <= |stream| then count else |stream| - p
  }

  /** Against a transport that accepts everything, a write never fails and
      sends the whole buffer prefix. */
  method WriteToEagerPeer(buffer: seq<byte>, bytesToWrite: int)
    returns (status: Status, chunks: seq<seq<byte>>)
    requires bytesToWrite <= |buffer|
    ensures status == Complete
    ensures Concat(chunks) == buffer[..if bytesToWrite < 0 then 0 else bytesToWrite]
  {
    var bytesWritten, calls, asked;
    status, bytesWritten, chunks, calls, asked := WriteAll(buffer, bytesToWrite, EagerSend);
  }

  /** Against a transport that delivers everything the peer sent, a read of
      bytes the peer did send never fails and returns them. */
  method ReadFromEagerPeer(stream: seq<byte>, at: nat, bytesToRead: nat)
    returns (status: Status, buffer: seq<byte>)
    requires at + bytesToRead <= |stream|
    ensures status == Complete && buffer == stream[at .. at + bytesToRead]
  {
    var bytesRead, calls, asked;
    status, bytesRead, buffer, calls, asked := ReadAll(stream, at, bytesToRead, EagerRecv(stream));
  }
}

=== FILE: wire.dfy ===
/** Frame layout of the netmem protocol: the opcode and status sentinels and
    frame sizes declared in the shared header, and the two commands the
    demand-paging client and server actually exchange. */
module Wire {
  import opened Octets
  import opened Bits

  datatype Option<T> = None | Some(value: T)

  /** The sentinels of the shared header: requests, their responses, and the
      connect-handshake acknowledgements. */
  datatype Code =
    | RequestPage | ResponsePageOk | ResponsePageErr
    | RequestPageSync | ResponsePageSyncOk | ResponsePageSyncErr
    | ResponsePageAllSync
    | ClientConnect | ClientDisconnect
    | ResponseAck | ResponseNack

  /** The byte each sentinel is sent as. None of them is one of the two
      opcodes the client and server exchange. */
  function CodeByte(c: Code): (b: byte)
    ensures b != CmdGetPage && b != CmdDisconnect
  {
    match c
    case RequestPage => 0x80
    case ResponsePageOk => 0x81
    case ResponsePageErr => 0x82
    case RequestPageSync => 0x90
    case ResponsePageSyncOk => 0x91
    case ResponsePageSyncErr => 0x92
    case ResponsePageAllSync => 0x70
    case ClientConnect => 0xA0
    case ClientDisconnect => 0xB0
    case ResponseAck => 0xE0
    case ResponseNack => 0xF0
  }

  /** The sentinel a received byte stands for, if any. */
  function CodeOf(b: byte): (r: Option<Code>)
    ensures r.Some? ==> CodeByte(r.value) == b
    ensures r.None? ==> forall c: Code :: CodeByte(c) != b
  {
    if b == 0x80 then Some(RequestPage)
    else if b == 0x81 then Some(ResponsePageOk)
    else if b == 0x82 then Some(ResponsePageErr)
    else if b == 0x90 then Some(RequestPageSync)
    else if b == 0x91 then Some(ResponsePageSyncOk)
    else if b == 0x92 then Some(ResponsePageSyncErr)
    else if b == 0x70 then Some(ResponsePageAllSync)
    else if b == 0xA0 then Some(ClientConnect)
    else if b == 0xB0 then Some(ClientDisconnect)
    else if b == 0xE0 then Some(ResponseAck)
    else if b == 0xF0 then Some(ResponseNack)
    else None
  }

  /** No two sentinels share a byte, so every sentinel can be recognised. */
  lemma CodesDistinct(c1: Code, c2: Code)
    ensures CodeOf(CodeByte(c1)) == Some(c1)
    ensures CodeByte(c1) == CodeByte(c2) ==> c1 == c2
  {
  }

  /** The connect acknowledgements are a different pair of bytes from the
      sync results. */
  lemma ConnectStatusIsNotSyncStatus()
    ensures CodeByte(ResponseAck) !in {CodeByte(ResponsePageSyncOk), CodeByte(ResponsePageSyncErr)}
    ensures CodeByte(ResponseNack) !in {CodeByte(ResponsePageSyncOk), CodeByte(ResponsePageSyncErr)}
  {
  }

  /** Opcode of a page request as the client and server exchange it. */
  const CmdGetPage: byte := 0xA8
  /** Opcode announcing the end of a session. */
  const CmdDisconnect: byte := 0xA9

  /** The two commands in use are neither of the header's sentinels. */
  lemma CommandsAreNotHeaderCodes()
    ensures CodeOf(CmdGetPage) == None && CodeOf(CmdDisconnect) == None
  {
  }

  /** Frame sizes of the header, in bytes. */
  const OpcodeSize: nat := 1
  const ClientPageSize: nat := 4096
  const PageOffsetSize: nat := 8
  const PageRequestSize: nat := OpcodeSize + PageOffsetSize
  const PageResponseSize: nat := OpcodeSize + ClientPageSize
  const SyncRequestSize: nat := OpcodeSize + PageOffsetSize + ClientPageSize
  const SyncResponseSize: nat := OpcodeSize
  const MaxRecvSize: nat := Max(PageRequestSize, SyncRequestSize)

  function Max(a: nat, b: nat): (m: nat)
    ensures a <= m && b <= m && (m == a || m == b)
  {
    if a < b then b else a
  }

  lemma FrameSizes()
    ensures PageOffsetSize == PtrSize
    ensures PageRequestSize == 9 && PageResponseSize == 4097
    ensures SyncRequestSize == 4105 && SyncResponseSize == 1
    ensures MaxRecvSize == SyncRequestSize
  {
  }

  /** Byte i of the offset field is `(offset >> (i << 3)) & 0xFF`. */
  lemma OffsetFieldByte(offset: u64, i: nat)
    requires i < PageOffsetSize
    ensures LeBytes(offset, PageOffsetSize)[i] == And(Shr(offset, Shl(i, 3)), 0xFF)
  {
    assert Pow2(3) == 8;
    assert Pow2(8) == 256;
    LeBytesAt(offset, PageOffsetSize, i);
    Pow256IsPow2(i);
    AndLowMask(offset / Pow2(8 * i), 8);
  }

  /** The page-request frame: the opcode, then the offset least significant
      byte first. */
  function PageRequest(offset: u64): (f: seq<byte>)
    ensures |f| == PageRequestSize && f[0] == CmdGetPage
    ensures forall i :: 0 <= i < PageOffsetSize ==> f[1 + i] == And(Shr(offset, Shl(i, 3)), 0xFF)
    ensures LeValue(f[1..]) == offset
  {
    forall i | 0 <= i < PageOffsetSize {
      OffsetFieldByte(offset, i);
    }
    QuadRoundTrip(offset);
    assert ([CmdGetPage] + LeBytes(offset, PageOffsetSize))[1..] == LeBytes(offset, PageOffsetSize);
    [CmdGetPage] + LeBytes(offset, PageOffsetSize)
  }

  /** Page-request frames for the given offsets, back to back. */
  function Requests(offsets: seq<u64>): (s: seq<byte>)
    ensures |s| == PageRequestSize * |offsets|
  {
    if offsets == [] then [] else PageRequest(offsets[0]) + Requests(offsets[1..])
  }
}
